=== FILE: README.md ===
# Assignment-submission back end: controller bookkeeping in Dafny

This project models the bookkeeping of the back end's five Express controllers: courses, classes, students, admins and teachers. Each collection is a `map` from id to record held in a class (`Admins.AdminStore`, `Teachers.TeacherStore`, `Students.StudentStore`, `Courses.Catalog`, `Classes.ClassStore`). Each handler is a method that either returns a status-coded failure and leaves the maps alone, or updates them. The checks each handler makes, in its own order, are pure functions beside the methods. The methods are proved against them.

The modules:

- `Js` — the JavaScript values a request body carries (`undefined`, `null`, a string). It also holds the tests the handlers apply to them:
  - truthiness;
  - `String(x).trim() === ""`, where `undefined` and `null` stringify to non-blank words;
  - `String.prototype.replace` with a string pattern, which replaces the first occurrence only.
- `Docs` — `findOne` on a field value, under MongoDB's rule that a query on `undefined`/`null` matches a missing or null field. It also holds the rule that an update leaves a field alone when its new value is `undefined`, and what a unique index keeps.
- `Seqs` — `Array.prototype.filter` on id lists.
- `Sessions` — the refresh-token protocol the three user roles share:
  - where the incoming token is read from;
  - the decision to rotate or reject it.
- `Admins`, `Teachers`, `Students`, `Courses`, `Classes` — one module per controller.

Three properties carry most of the proof work:

- **Refresh tokens are single-use.** A token is accepted only while it is the one stored for its user. A logged-out user or a rotated-away token is rejected with 401.
- **Registration and profile updates keep values unique.** An accepted admin or teacher registration keeps usernames unique. Registrations do not check emails, nor do student registrations check the CNIC alone, so neither is kept unique. An accepted profile update keeps usernames and emails unique, and for students CNICs too. The student registration check looks for the username and the CNIC on the same record, so it lets a duplicate username through. The class-creation key check keeps enrollment keys unique, and editing a class does not.
- **Courses stay linked.** Every campus a course lists belongs to a city the course lists. Adding a campus with its own city, removing a campus and removing a city all preserve this, with the removal rule corrected as described under Findings.

Where the code and the design description differ, the model follows the code:

- Re-adding a (city, campus) pair a course already lists is a 400 error, not a silent no-op. The course is left unchanged.
- A duplicate at registration is a 409 only for admins. Teachers get a 400. A student counts as a duplicate only when one record has both the username and the CNIC.
- No registration handler checks the email.

## Model

| member | source | states |
|---|---|---|
| Js.TrimEmptyIff | src/controllers/student.controllers.js:68 | trimming leaves nothing exactly when every character is JavaScript white space |
| Js.Blank | src/controllers/student.controllers.js:68 | a field's string form trims to "" iff it is a string of white space only; undefined and null are never blank |
| Js.FirstOccurrence | src/controllers/admin.controllers.js:205-208 | the position found holds the pattern and none before it does; none is found only when the pattern occurs nowhere |
| Js.ReplaceFirst | src/controllers/admin.controllers.js:205-208 | with no occurrence of the pattern the string is unchanged; otherwise exactly its first occurrence is replaced |
| Sessions.Incoming | src/controllers/admin.controllers.js:205-214 | the cookie token wins, then the body's; with neither, and the header allowed, the token is the Authorization header with its first "Bearer " removed, and none when that leaves nothing or there is no header; with no header allowed (teachers) a token is found iff the cookie or the body has one; a token found is never empty |
| Sessions.BearerHeaderYieldsToken | src/controllers/student.controllers.js:242 | a lone header "Bearer t" yields exactly t |
| Sessions.HeaderWithoutBearerKept | src/controllers/admin.controllers.js:205-208 | a header without "Bearer " is used verbatim |
| Sessions.Decide | src/controllers/admin.controllers.js:212-232 | a refresh rotates iff the token verifies to an existing user whose stored token is that very token; every rejection is 401 |
| Sessions.LoggedOutUserRejected | src/controllers/student.controllers.js:255-261 | once the stored token is unset, no token of that user is accepted |
| Sessions.RotatedTokenRejected | src/controllers/student.controllers.js:259-265 | after the stored token is replaced by a different one, the old token is rejected |
| Seqs.Filter | src/controllers/course.controllers.js:427-433 | the result holds exactly the elements satisfying the predicate and is no longer than the input |
| Seqs.FilterAppend | src/controllers/course.controllers.js:427-433 | filtering keeps the order of what remains: it distributes over concatenation |
| Seqs.Drop | src/controllers/course.controllers.js:358-360 | removing a set of ids leaves exactly the other elements |
| Seqs.DropAppend | src/controllers/course.controllers.js:358-360 | removal keeps the order of what remains |
| Docs.ProfileError | src/controllers/admin.controllers.js:293-318 | 400 for a blank field, 409 when another record holds the username or email sent, 400 when the caller's record is gone, and no other status; no error iff none holds; the teacher handler (src/controllers/teacher.controllers.js:299-334) makes the same checks in the same order |
| Admins.RegisterError | src/controllers/admin.controllers.js:42-73 | 400 for a blank field, then 409 for a taken username, then 400 without a file or after a failed upload; every failure is 400 or 409; no error iff none of these holds |
| Admins.RegisterKeepsUsernamesUnique | src/controllers/admin.controllers.js:57-90 | a registration that passes the checks keeps usernames unique |
| Admins.OwnValuesAccepted | src/controllers/admin.controllers.js:304-318 | resubmitting one's own username and email is accepted |
| Admins.ProfileUpdateKeepsUnique | src/controllers/admin.controllers.js:304-335 | an accepted profile update keeps usernames and emails unique |
| Admins.Relocate | src/controllers/admin.controllers.js:389-405 | whichever branch runs, the admin ends with the requested city and campus, an id left out of the body keeping its stored value as the write-back with `findByIdAndUpdate` does; a stored id that is missing where the branch reads it is a 500 |
| Admins.NoIdsKeepPlace | src/controllers/admin.controllers.js:389-405 | a request without city or campus leaves a placed admin unchanged, so later edits behave as if it had not happened |
| Admins.AdminStore.IssueTokens | src/controllers/admin.controllers.js:16-28 | the issued refresh token becomes the stored one; an unknown id is 500 and changes nothing |
| Admins.AdminStore.Register | src/controllers/admin.controllers.js:30-112 | fails with RegisterError's status and no change, or adds exactly the new admin |
| Admins.AdminStore.Login | src/controllers/admin.controllers.js:114-166 | 400 for a missing username or password or an unknown username, 401 for a wrong password; on success the matching admin's token is rotated and nothing else changes |
| Admins.AdminStore.Logout | src/controllers/admin.controllers.js:168-185 | the caller's stored refresh token is unset and nothing else changes |
| Admins.AdminStore.Refresh | src/controllers/admin.controllers.js:204-253 | rotates the stored token exactly when Decide accepts, otherwise 401 with no change |
| Admins.AdminStore.UpdateProfileDetails | src/controllers/admin.controllers.js:293-350 | fails with Docs.ProfileError's status and no change, or writes the fields sent to the caller's record |
| Admins.AdminStore.EditCityOrCampus | src/controllers/admin.controllers.js:378-435 | 404 for an unknown admin; otherwise the city and campus sent (stored values kept for ids left out), a 500 when a stored id it reads is missing, the target verified iff the acting admin is verified and the body asks for it, and the actor as updater |
| Admins.AdminStore.Delete | src/controllers/admin.controllers.js:437-455 | 404 for an unknown admin, otherwise exactly that admin is removed |
| Teachers.RegisterError | src/controllers/teacher.controllers.js:47-82 | 400 for a blank field, without a file, after a failed upload, and only then for a taken username |
| Teachers.RegisterKeepsUsernamesUnique | src/controllers/teacher.controllers.js:76-102 | a registration that passes the checks keeps usernames unique |
| Teachers.ProfileUpdateKeepsUnique | src/controllers/teacher.controllers.js:320-350 | an accepted profile update keeps usernames and emails unique |
| Teachers.Assigned | src/controllers/class.controllers.js:106-117 | the class id is appended to instructorOfClass and the campus id to campus, each list growing by one with no de-duplication; the teacher ends verified; nothing else changes |
| Teachers.TeacherStore.IssueTokens | src/controllers/teacher.controllers.js:17-31 | the issued refresh token becomes the stored one |
| Teachers.TeacherStore.Register | src/controllers/teacher.controllers.js:33-115 | fails with RegisterError's status and no change, or adds exactly the new teacher |
| Teachers.TeacherStore.Login | src/controllers/teacher.controllers.js:117-165 | 400 for a missing username or password or an unknown username, 401 for a wrong password, otherwise tokens issued |
| Teachers.TeacherStore.Logout | src/controllers/teacher.controllers.js:167-184 | the caller's stored refresh token is unset |
| Teachers.TeacherStore.Refresh | src/controllers/teacher.controllers.js:198-245 | the token is read from cookie or body only; rotation exactly when Decide accepts, otherwise 401 with no change |
| Teachers.TeacherStore.UpdateProfileDetails | src/controllers/teacher.controllers.js:299-368 | fails with Docs.ProfileError's status and no change, or writes the fields sent |
| Courses.AddCourseError | src/controllers/course.controllers.js:132-154 | 400 for a missing name, city id or campus id, then 404 for an unknown city, campus or admin, in that order |
| Courses.Extend | src/controllers/course.controllers.js:158-178 | 400 iff both ids are listed; otherwise the campus is appended (even if present) and the city appended only when new |
| Courses.ExtendKeepsLinked | src/controllers/course.controllers.js:169-178 | extending with a campus and its own city keeps the course linked |
| Courses.NewCourseLinked | src/controllers/course.controllers.js:194-200 | a new course of one campus and its city is linked |
| Courses.RemoveCampusAsWritten | src/controllers/course.controllers.js:318-362 | nothing happens when no campus of the city was listed; otherwise the campus is removed, the city list loses exactly that city when one campus of it was listed and is unchanged otherwise, and name and creator stay |
| Courses.RemoveCampusAsWrittenUnlinks | src/controllers/course.controllers.js:324-333 | a linked course whose one campus of a city is not the one removed loses the city and is left unlinked |
| Courses.RemoveCampus | src/controllers/course.controllers.js:318-362 | the campus is removed everywhere; the city is dropped exactly when the removed campus was the only listed campus of it |
| Courses.RemoveCampusKeepsLinked | src/controllers/course.controllers.js:324-362 | removing a campus keeps the course linked |
| Courses.RemoveCampusAgrees | src/controllers/course.controllers.js:324-333 | for a campus the course lists, the corrected removal and the written one coincide |
| Courses.RemoveCityKeepsLinked | src/controllers/course.controllers.js:414-435 | removing a city keeps the course linked and leaves neither the city nor any campus of it |
| Courses.Catalog.AddCourse | src/controllers/course.controllers.js:126-219 | fails per AddCourseError; with no course of that name creates one with [city], [campus] and the actor as creator; otherwise applies Extend to a course of that name; keeps courses linked when the campus belongs to the city |
| Courses.Catalog.EditCourse | src/controllers/course.controllers.js:259-294 | 400 without a name; a missing course changes nothing; otherwise only the name changes |
| Courses.Catalog.DeleteCourse | src/controllers/course.controllers.js:296-302 | always 200; the course is gone afterwards |
| Courses.Catalog.DeleteCourseCampus | src/controllers/course.controllers.js:304-384 | 404 for an unknown course or campus; otherwise RemoveCampus, or no reply when the course lists no campus of that city; courses stay linked |
| Courses.Catalog.DeleteCourseCity | src/controllers/course.controllers.js:386-453 | 404 for an empty id or unknown course; otherwise the two filters yield RemoveCity; courses stay linked |
| Classes.FirstFalsy | src/controllers/class.controllers.js:26-56 | the index of the first falsy field, all before it truthy; none iff all are truthy |
| Classes.AddClassError | src/controllers/class.controllers.js:26-87 | 400 for the first missing field, then 400 for a taken enrollment key; past both, 404 when the admin, teacher, city, campus or course is unknown; no error iff all checks pass |
| Classes.AddClassKeepsKeysUnique | src/controllers/class.controllers.js:63-67 | a class created after the key check keeps enrollment keys unique |
| Classes.EditMayDuplicateKey | src/controllers/class.controllers.js:241-254 | an edit can give a class the key another class holds |
| Classes.ClassStore.AddClass | src/controllers/class.controllers.js:14-153 | fails per AddClassError with nothing changed; otherwise stores the class with the actor as creator and applies Teachers.Assigned to its teacher, who ends verified |
| Classes.ClassStore.EditClass | src/controllers/class.controllers.js:227-287 | 404 for an unknown class; otherwise each field sent replaces the stored one and the actor becomes the updater |
| Classes.ClassStore.DeleteClass | src/controllers/class.controllers.js:289-299 | 404 for an unknown class, otherwise exactly that class is removed |
| Students.RegisterError | src/controllers/student.controllers.js:52-92 | 400 for a blank field, for a record holding both username and CNIC, without a file or after a failed upload |
| Students.UsernameAloneNotADuplicate | src/controllers/student.controllers.js:73-80 | a taken username with a new CNIC passes the check and leaves two students sharing the username |
| Students.DetailsError | src/controllers/student.controllers.js:327-361 | 400 for a blank field, 409 when the username, email or CNIC is held by another student, 400 when the caller is gone, and no other status; no error iff none holds |
| Students.OwnValuesAccepted | src/controllers/student.controllers.js:339-361 | resubmitting one's own username, email and CNIC is accepted |
| Students.ProfileUpdateKeepsUnique | src/controllers/student.controllers.js:339-396 | an accepted profile update keeps usernames, emails and CNICs unique |
| Students.DeleteError | src/controllers/student.controllers.js:461-475 | 401 without an id; 404 for an unknown student or one whose enrolledInClass is anything but null; no error otherwise |
| Students.FirstSubmission | src/controllers/student.controllers.js:513 | the position of the student's first submission: it is theirs and none before it is |
| Students.EntryOf | src/controllers/student.controllers.js:513-531 | an entry carries the assignment's title and description and the marks, link and date of the student's first submission to it |
| Students.Entries | src/controllers/student.controllers.js:523-532 | one entry per queried assignment, in order |
| Students.EntriesTraceBack | src/controllers/student.controllers.js:510-531 | every entry comes from an assignment of the class carrying the student's own submission |
| Students.EntriesComplete | src/controllers/student.controllers.js:510-531 | every assignment the query selects has its entry in the list |
| Students.PerformanceOf | src/controllers/student.controllers.js:497-536 | 400 without both ids, 500 for an unknown class; totalAssignments is the class's assignment count; every assignment of the class the student submitted has its entry, every entry is one of those, and the count is the number of such assignments |
| Students.NothingSubmittedNothingReported | src/controllers/student.controllers.js:510-515 | a student with no submission to the class is reported with a count of zero |
| Students.OtherClassesIgnored | src/controllers/student.controllers.js:510-515 | assignments of other classes do not change the summary |
| Students.StudentStore.IssueTokens | src/controllers/student.controllers.js:18-33 | the issued refresh token becomes the stored one |
| Students.StudentStore.Register | src/controllers/student.controllers.js:35-141 | fails per RegisterError with no change, or adds the new student already holding the refresh token issued to it |
| Students.StudentStore.Login | src/controllers/student.controllers.js:143-191 | 400 for a missing username or password or an unknown username, 401 for a wrong password, otherwise tokens issued |
| Students.StudentStore.Logout | src/controllers/student.controllers.js:193-210 | the caller's stored refresh token is unset |
| Students.StudentStore.Refresh | src/controllers/student.controllers.js:241-286 | rotation exactly when Decide accepts, otherwise 401 with no change |
| Students.StudentStore.UpdateProfileDetails | src/controllers/student.controllers.js:327-400 | fails with Students.DetailsError's status and no change, or writes the fields sent |
| Students.StudentStore.Delete | src/controllers/student.controllers.js:457-482 | fails per DeleteError with no change, otherwise removes exactly that student; an enrolled student is never removed |

## Left out

- Password hashing is not modelled: a password check is equality with the stored password.
- Token signing and expiry are not modelled:
  - `jwt.verify` is a map from each token that verifies to the user id inside it.
  - Issued tokens are strings the caller supplies, never assumed distinct.
- Profile-image storage is not modelled: a file's presence and the upload's success are booleans. Deleting old images from storage, and `src/utils/cloudinary.js` in general, are not part of this model.
- Schema validation and unique indexes applied when a record is saved are not modelled. Only the handlers' own checks are.
- The student and teacher schemas are not part of this model. It assumes these defaults:
  - `enrolledInClass` is null for a new student.
  - A teacher's `instructorOfClass` and `campus` are arrays.
  - A teacher's `isVerified` is a boolean that starts false.
- Ids are plain strings. A malformed id, which the database would reject with a cast error, is not modelled.
- Request bodies hold strings, `null` or nothing. Numbers, booleans and objects in a body are not modelled, except the `isVerified` flag of editAdminCityOrCampus, taken to be a boolean.
- Several handlers are not part of this model, since they only read, shape a response or replace a profile image:
  - the read-only lookups (`getCurrent*`, `getAll*`, `getCourse`, `getClasses`, `getTeachersByCourse`, `getStudentClass`, `getStudentsByClass`);
  - `updateProfilePicture`;
  - `editStudent`.
- The response is not modelled beyond its status:
  - population of references, field selection, the response envelope, cookies and logging;
  - the JSON `statusCode` that differs from the HTTP one.
- Concurrency and non-atomic multi-step writes are not modelled. Each handler is one atomic step.
- `asyncHandler` (src/utils/asyncHandler.js) is not part of this model. An exception a handler does not raise itself, such as reading a property of a missing record, is taken to surface as 500.
- Admins.AdminStore.Login: any admin holding the username may be picked, where `findOne` takes the first in storage order. The contract therefore promises success only when every such record has the given password.
- Teachers.TeacherStore.Login: the same choice of record as for admins.
- Students.StudentStore.Login: the same choice of record as for admins.
- Docs.HeldByOther: a conflict is "another record holds the value". This matches the handler's "the record found is not the caller's" only while each value is held by at most one record. The uniqueness lemmas maintain that for text values only. Several records may lack a value or hold null, so for a missing or null value sent the model answers a conflict whenever another record lacks it, where `findOne` may return the caller's own record.
- Courses.Catalog.AddCourse: the handler does not check that the campus belongs to the city. The linked invariant is therefore promised only when it does.
- Sessions.RotatedTokenRejected: a reused token is rejected only when the newly issued token differs from it. Issued tokens carry a one-second timestamp, so two issued within the same second may coincide.
- Admins.AdminStore.EditCityOrCampus: the body's `isVerified` is a boolean. The handler assigns whatever the body holds, so an absent flag or a string sent by a verified admin is not covered.
- Courses.Catalog.DeleteCourseCity: the handler tests ids with `toString().includes(...)` on comma-joined id lists. The model reads that as exact membership, which holds only while ids have one fixed width, as the 24-character database ids do.
- Courses.Catalog.DeleteCourseCampus: the model uses the corrected city rule from the Findings table. The written rule is `Courses.RemoveCampusAsWritten`.

## Findings

| source | as written | input that shows it | evidently intended | confidence | as-written member | corrected member |
|---|---|---|---|---|---|---|
| src/controllers/course.controllers.js:324-333 | when exactly one campus of the removed campus's city is listed, the city is dropped even if that campus is not the one being removed | a course listing city C and its campus P1; remove campus P2, also in C but not listed | drop the city only when the campus removed is the last listed campus of that city | not executed | Courses.RemoveCampusAsWrittenUnlinks | Courses.RemoveCampus |

`Courses.RemoveCampusKeepsLinked` proves that the corrected removal keeps every course linked. `Courses.RemoveCampusAgrees` proves that it matches the written code whenever the removed campus is one the course lists.

=== FILE: admin.dfy ===
/**
  The admin controller: registration, login, logout, refresh-token
  rotation, profile updates, the city/campus/verification edit, and
  deletion, over the admin collection.
 */
module Admins {
  import opened Js
  import opened Docs
  import Sessions

  type Token = Sessions.Token

  /**
    An admin record (src/models/admin.model.js). The text attributes hold
    what the registration body carried; `isVerified` defaults to false.
   */
  datatype Admin = Admin(
    fullName: Field, username: Field, email: Field, password: Field,
    phoneNumber: Field, gender: Field, city: Field, campus: Field,
    profile: string, isVerified: bool, refreshToken: Option<Token>,
    createdBy: Id, updatedBy: Option<Id>)

  /** The authenticated admin the auth middleware attached to the request (`req.admin`). */
  datatype Principal = Principal(id: Id, isVerified: bool)

  datatype Registration = Registration(
    fullName: Field, username: Field, email: Field, password: Field,
    phoneNumber: Field, gender: Field, city: Field, campus: Field)

  datatype ProfileDetails = ProfileDetails(
    fullName: Field, email: Field, phone: Field, gender: Field, username: Field)

  function Username(a: Admin): Field { a.username }
  function Email(a: Admin): Field { a.email }
  function StoredToken(a: Admin): Option<Token> { a.refreshToken }

  /** The fields registerAdmin tests for blankness, in its order. */
  function RegistrationFields(q: Registration): seq<Field> {
    [q.fullName, q.username, q.email, q.password, q.phoneNumber, q.gender, q.city, q.campus]
  }

  /**
    registerAdmin's checks before it creates the record: 400 when a field
    is blank, then 409 when the username is taken, then 400 without a
    profile file or when its upload fails.
   */
  function RegisterError(admins: map<Id, Admin>, q: Registration, hasFile: bool, uploaded: bool)
    : (e: Option<int>)
    ensures AnyBlank(RegistrationFields(q)) ==> e == Some(400)
    ensures !AnyBlank(RegistrationFields(q)) && Held(admins, Username, q.username) ==> e == Some(409)
    ensures e.None? <==> !AnyBlank(RegistrationFields(q)) && !Held(admins, Username, q.username)
                         && hasFile && uploaded
    ensures !AnyBlank(RegistrationFields(q)) && !Held(admins, Username, q.username) && (!hasFile || !uploaded)
            ==> e == Some(400)
    ensures e.Some? ==> e.value == 400 || e.value == 409
  {
    if AnyBlank(RegistrationFields(q)) then Some(400)
    else if Held(admins, Username, q.username) then Some(409)
    else if !hasFile then Some(400)
    else if !uploaded then Some(400)
    else None
  }

  /** The record registerAdmin saves. */
  function Created(q: Registration, url: string, creator: Id): Admin {
    Admin(q.fullName, q.username, q.email, q.password, q.phoneNumber, q.gender, q.city, q.campus,
          url, false, None, creator, None)
  }

  /** The fields updateProfileDetails tests for blankness, in its order. */
  function DetailFields(d: ProfileDetails): seq<Field> {
    [d.fullName, d.email, d.phone, d.gender, d.username]
  }

  /** updateProfileDetails' checks over the admin collection. */
  function DetailsError(admins: map<Id, Admin>, self: Id, d: ProfileDetails): Option<int> {
    ProfileError(admins, self, DetailFields(d), Username, d.username, Email, d.email)
  }

  /**
    Resubmitting the username and email one already holds is accepted
    while the unique indexes hold.
   */
  lemma OwnValuesAccepted(admins: map<Id, Admin>, self: Id, d: ProfileDetails)
    requires self in admins && !AnyBlank(DetailFields(d))
    requires Unique(admins, Username) && Unique(admins, Email)
    requires d.username == admins[self].username && d.email == admins[self].email
    requires d.username.Text? && d.email.Text?
    ensures DetailsError(admins, self, d) == None
  {
  }

  /**
    The record after updateProfileDetails. `phone` is not a path of the
    admin schema, so the update drops it and `phoneNumber` stays.
   */
  function WithDetails(a: Admin, d: ProfileDetails): Admin {
    a.(fullName := Overwrite(a.fullName, d.fullName), email := Overwrite(a.email, d.email),
       gender := Overwrite(a.gender, d.gender), username := Overwrite(a.username, d.username))
  }

  /** A registration that passes every check keeps usernames unique. */
  lemma RegisterKeepsUsernamesUnique(admins: map<Id, Admin>, q: Registration, hasFile: bool,
                                     uploaded: bool, url: string, creator: Id, newId: Id)
    requires Unique(admins, Username) && newId !in admins
    requires RegisterError(admins, q, hasFile, uploaded).None?
    ensures Unique(admins[newId := Created(q, url, creator)], Username)
  {
    InsertKeepsUnique(admins, Username, newId, Created(q, url, creator));
  }

  /** A profile update that passes every check keeps usernames and emails unique. */
  lemma ProfileUpdateKeepsUnique(admins: map<Id, Admin>, self: Id, d: ProfileDetails)
    requires Unique(admins, Username) && Unique(admins, Email)
    requires DetailsError(admins, self, d).None?
    ensures Unique(admins[self := WithDetails(admins[self], d)], Username)
    ensures Unique(admins[self := WithDetails(admins[self], d)], Email)
  {
    var rec := WithDetails(admins[self], d);
    if d.username.Undefined? {
      SameValueKeepsUnique(admins, Username, self, rec);
    } else {
      ReplaceKeepsUnique(admins, Username, self, rec);
    }
    if d.email.Undefined? {
      SameValueKeepsUnique(admins, Email, self, rec);
    } else {
      ReplaceKeepsUnique(admins, Email, self, rec);
    }
  }

  /**
    The three branches of editAdminCityOrCampus: keep the city and set
    the campus, keep the campus and set the city, or set both. Whichever
    runs, the admin ends with the requested city and campus; the document
    is written back with `findByIdAndUpdate`, so an id the body leaves out
    keeps its stored value. The stored ids are read with `toString()`,
    which throws (500) on a missing one.
   */
  function Relocate(a: Admin, cityId: Field, campusId: Field): (r: Result<Admin>)
    ensures r.Ok? ==> r.value == a.(city := Overwrite(a.city, cityId), campus := Overwrite(a.campus, campusId))
    ensures r.Fail? <==> !a.city.Text? || (cityId != a.city && !a.campus.Text?)
    ensures r.Fail? ==> r.status == 500
  {
    if !a.city.Text? then Fail(500)
    else if cityId == a.city then Ok(a.(campus := Overwrite(a.campus, campusId)))
    else if !a.campus.Text? then Fail(500)
    else if campusId == a.campus then Ok(a.(city := Overwrite(a.city, cityId)))
    else Ok(a.(city := Overwrite(a.city, cityId), campus := Overwrite(a.campus, campusId)))
  }

  /**
    A request that sends neither id leaves an admin with a stored city and
    campus where it is, so a later edit can still read both.
   */
  lemma NoIdsKeepPlace(a: Admin, cityId: Field, campusId: Field)
    requires a.city.Text? && a.campus.Text?
    ensures Relocate(a, Undefined, Undefined) == Ok(a)
    ensures Relocate(Relocate(a, Undefined, Undefined).value, cityId, campusId) == Relocate(a, cityId, campusId)
  {
  }

  /**
    The verification flag editAdminCityOrCampus stores: the requested one
    when the acting admin is verified, false otherwise. An unverified
    admin can thus never verify anyone.
   */
  function GrantedVerification(actor: Principal, requested: bool): bool {
    if actor.isVerified then requested else false
  }

  class AdminStore {
    var admins: map<Id, Admin>

    constructor ()
      ensures admins == map[]
    {
      admins := map[];
    }

    /** generateAccessAndRefreshToken: the issued refresh token becomes the stored one. */
    method IssueTokens(id: Id, access: Token, refresh: Token) returns (r: Result<Sessions.TokenPair>)
      modifies this
      ensures id in old(admins) ==> r == Ok(Sessions.TokenPair(access, refresh))
                                    && admins == old(admins)[id := old(admins)[id].(refreshToken := Some(refresh))]
      ensures id !in old(admins) ==> r == Fail(500) && admins == old(admins)
      ensures r.Ok? ==> id in admins && admins[id].refreshToken == Some(r.value.refreshToken)
    {
      if id !in admins {
        return Fail(500);
      }
      admins := admins[id := admins[id].(refreshToken := Some(refresh))];
      r := Ok(Sessions.TokenPair(access, refresh));
    }

    /** registerAdmin; `newId` is the id the database assigns. */
    method Register(q: Registration, actor: Principal, hasFile: bool, uploaded: bool, url: string, newId: Id)
      returns (r: Result<Id>)
      requires newId !in admins
      modifies this
      ensures var e := RegisterError(old(admins), q, hasFile, uploaded);
              if e.Some? then r == Fail(e.value) && admins == old(admins)
              else r == Ok(newId) && admins == old(admins)[newId := Created(q, url, actor.id)]
    {
      var e := RegisterError(admins, q, hasFile, uploaded);
      if e.Some? {
        return Fail(e.value);
      }
      admins := admins[newId := Created(q, url, actor.id)];
      r := Ok(newId);
    }

    /**
      loginAdmin: 400 for a missing username or password or an unknown
      username, 401 for a wrong password; otherwise tokens are issued for
      the admin found.
     */
    method Login(username: Field, password: Field, access: Token, refresh: Token)
      returns (r: Result<(Id, Sessions.TokenPair)>)
      modifies this
      ensures r.Fail? ==> admins == old(admins) && (r.status == 400 || r.status == 401)
      ensures Falsy(username) || Falsy(password) ==> r == Fail(400)
      ensures !Falsy(username) && !Held(old(admins), Username, username) ==> r == Fail(400)
      ensures !Falsy(username) && !Falsy(password) && Held(old(admins), Username, username)
              ==> r.Ok? || r == Fail(401)
      ensures r == Fail(401) ==> exists k :: k in old(admins) && old(admins)[k].username == username
                                               && old(admins)[k].password != password
      ensures r.Ok? ==> var id := r.value.0;
                        id in old(admins) && old(admins)[id].username == username
                        && old(admins)[id].password == password
                        && r.value.1 == Sessions.TokenPair(access, refresh)
                        && admins == old(admins)[id := old(admins)[id].(refreshToken := Some(refresh))]
      ensures !Falsy(username) && !Falsy(password) && Held(old(admins), Username, username)
              && (forall k :: k in old(admins) && old(admins)[k].username == username
                              ==> old(admins)[k].password == password)
              ==> r.Ok?
    {
      if Falsy(username) || Falsy(password) {
        return Fail(400);
      }
      if !Held(admins, Username, username) {
        return Fail(400);
      }
      var id :| id in admins && Matches(Username(admins[id]), username);
      if admins[id].password != password {
        return Fail(401);
      }
      var issued := IssueTokens(id, access, refresh);
      r := Ok((id, issued.value));
    }

    /** logoutAdmin: the caller's stored refresh token is unset. */
    method Logout(self: Id)
      modifies this
      ensures admins == if self in old(admins)
                        then old(admins)[self := old(admins)[self].(refreshToken := None)]
                        else old(admins)
    {
      if self in admins {
        admins := admins[self := admins[self].(refreshToken := None)];
      }
    }

    /**
      refreshAdminAccessToken: the token comes from the cookie, the body
      or the Authorization header; it is honoured only when it is the
      stored one, which is then replaced. Every failure is a 401.
     */
    method Refresh(c: Sessions.Carrier, verify: map<Token, Id>, access: Token, refresh: Token)
      returns (r: Result<Sessions.TokenPair>)
      modifies this
      ensures var v := Sessions.Decide(Sessions.Incoming(c, true), verify, old(admins), StoredToken);
              if v.Rotate?
              then r == Ok(Sessions.TokenPair(access, refresh))
                   && admins == old(admins)[v.user := old(admins)[v.user].(refreshToken := Some(refresh))]
              else r == Fail(401) && admins == old(admins)
    {
      var v := Sessions.Decide(Sessions.Incoming(c, true), verify, admins, StoredToken);
      if v.Reject? {
        return Fail(v.status);
      }
      r := IssueTokens(v.user, access, refresh);
    }

    /** updateProfileDetails for the authenticated admin `self`. */
    method UpdateProfileDetails(self: Id, d: ProfileDetails) returns (r: Result<Admin>)
      modifies this
      ensures var e := DetailsError(old(admins), self, d);
              if e.Some? then r == Fail(e.value) && admins == old(admins)
              else admins == old(admins)[self := WithDetails(old(admins)[self], d)] && r == Ok(admins[self])
    {
      var e := DetailsError(admins, self, d);
      if e.Some? {
        return Fail(e.value);
      }
      admins := admins[self := WithDetails(admins[self], d)];
      r := Ok(admins[self]);
    }

    /**
      editAdminCityOrCampus: 404 for an unknown admin; otherwise the admin
      gets the requested city and campus, the verification flag the actor
      may grant, and the actor as `updatedBy`.
     */
    method EditCityOrCampus(adminId: Id, cityId: Field, campusId: Field, requested: bool, actor: Principal)
      returns (r: Result<Admin>)
      modifies this
      ensures adminId !in old(admins) ==> r == Fail(404) && admins == old(admins)
      ensures adminId in old(admins) && Relocate(old(admins)[adminId], cityId, campusId).Fail?
              ==> r == Fail(500) && admins == old(admins)
      ensures r.Ok? ==> adminId in old(admins) && adminId in admins && r.value == admins[adminId]
                        && admins == old(admins)[adminId := admins[adminId]]
                        && admins[adminId] == old(admins)[adminId].(
                             city := Overwrite(old(admins)[adminId].city, cityId),
                             campus := Overwrite(old(admins)[adminId].campus, campusId),
                             isVerified := actor.isVerified && requested, updatedBy := Some(actor.id))
      ensures adminId in old(admins) && Relocate(old(admins)[adminId], cityId, campusId).Ok? ==> r.Ok?
    {
      if adminId !in admins {
        return Fail(404);
      }
      var moved := Relocate(admins[adminId], cityId, campusId);
      if moved.Fail? {
        return Fail(moved.status);
      }
      var a := moved.value.(isVerified := GrantedVerification(actor, requested), updatedBy := Some(actor.id));
      admins := admins[adminId := a];
      r := Ok(a);
    }

    /** deleteAdmin: 404 for an unknown admin, otherwise the record is removed. */
    method Delete(adminId: Id) returns (r: Result<()>)
      modifies this
      ensures adminId !in old(admins) ==> r == Fail(404) && admins == old(admins)
      ensures adminId in old(admins) ==> r == Ok(()) && admins == old(admins) - {adminId}
    {
      if adminId !in admins {
        return Fail(404);
      }
      admins := admins - {adminId};
      r := Ok(());
    }
  }
}

=== FILE: class.dfy ===
/**
  The class controller: creating a class checks its fields, then the
  uniqueness of its enrollment key, then that everything it refers to
  exists, and assigns the class to its teacher; editing and deleting
  a class first require that it exists.
 */
module Classes {
  import opened Js
  import opened Docs
  import Admins
  import Teachers
  import Courses

  datatype ClassRecord = ClassRecord(
    name: Field, enrollmentKey: Field, batch: Field, teacher: Field, city: Field,
    course: Field, campus: Field, createdBy: Id, updatedBy: Option<Id>,
    assignments: seq<Id>, students: seq<Id>)

  /** The body of an addClass request. */
  datatype NewClass = NewClass(
    name: Field, enrollmentKey: Field, batch: Field, teacherId: Field, cityId: Field,
    courseId: Field, campusId: Field, userId: Field)

  /** The body of an editClass request. */
  datatype ClassEdit = ClassEdit(
    className: Field, enrollmentKey: Field, batch: Field, cityId: Field, campusId: Field,
    courseId: Field, teacherId: Field)

  function EnrollmentKey(c: ClassRecord): Field { c.enrollmentKey }

  /** addClass's required fields, in the order it tests them. */
  function RequiredFields(q: NewClass): seq<Field> {
    [q.name, q.enrollmentKey, q.batch, q.teacherId, q.cityId, q.courseId, q.campusId, q.userId]
  }

  /** The position of the first falsy field, if any. */
  function FirstFalsy(fields: seq<Field>): (i: Option<nat>)
    ensures i.Some? ==> i.value < |fields| && Falsy(fields[i.value])
                        && forall j :: 0 <= j < i.value ==> !Falsy(fields[j])
    ensures i.None? <==> forall j :: 0 <= j < |fields| ==> !Falsy(fields[j])
  {
    if fields == [] then None
    else if Falsy(fields[0]) then Some(0)
    else
      var rest := FirstFalsy(fields[1..]);
      if rest.None? then None else Some(rest.value + 1)
  }

  /** Every required field of the request is truthy. */
  predicate Present(q: NewClass) {
    !Falsy(q.name) && !Falsy(q.enrollmentKey) && !Falsy(q.batch) && !Falsy(q.teacherId)
    && !Falsy(q.cityId) && !Falsy(q.courseId) && !Falsy(q.campusId) && !Falsy(q.userId)
  }

  lemma FirstFalsyNone(q: NewClass)
    ensures FirstFalsy(RequiredFields(q)).None? <==> Present(q)
  {
    var f := RequiredFields(q);
    assert f[0] == q.name && f[1] == q.enrollmentKey && f[2] == q.batch && f[3] == q.teacherId;
    assert f[4] == q.cityId && f[5] == q.courseId && f[6] == q.campusId && f[7] == q.userId;
  }

  /**
    addClass's checks: 400 for the first missing field, then 400 when the
    enrollment key is taken, and only then 404 for an unknown admin
    (`userId`), teacher, city, campus or course, in that order.
   */
  function AddClassError(classes: map<Id, ClassRecord>, q: NewClass, admins: map<Id, Admins.Admin>,
                         teachers: map<Id, Teachers.Teacher>, cities: set<Id>,
                         campusCity: map<Id, Id>, courses: map<Id, Courses.Course>): (e: Option<int>)
    ensures FirstFalsy(RequiredFields(q)).Some? ==> e == Some(400)
    ensures Present(q) && Held(classes, EnrollmentKey, q.enrollmentKey) ==> e == Some(400)
    ensures e.Some? && e.value == 404 ==> !Held(classes, EnrollmentKey, q.enrollmentKey)
    ensures Present(q) && !Held(classes, EnrollmentKey, q.enrollmentKey)
            && !(q.userId.s in admins && q.teacherId.s in teachers && q.cityId.s in cities
                 && q.campusId.s in campusCity && q.courseId.s in courses)
            ==> e == Some(404)
    ensures e.Some? ==> e.value == 400 || e.value == 404
    ensures e.None? <==> Present(q) && !Held(classes, EnrollmentKey, q.enrollmentKey)
                         && q.userId.s in admins && q.teacherId.s in teachers && q.cityId.s in cities
                         && q.campusId.s in campusCity && q.courseId.s in courses
  {
    FirstFalsyNone(q);
    if FirstFalsy(RequiredFields(q)).Some? then Some(400)
    else if Held(classes, EnrollmentKey, q.enrollmentKey) then Some(400)
    else if q.userId.s !in admins then Some(404)
    else if q.teacherId.s !in teachers then Some(404)
    else if q.cityId.s !in cities then Some(404)
    else if q.campusId.s !in campusCity then Some(404)
    else if q.courseId.s !in courses then Some(404)
    else None
  }

  /** The class addClass saves; its creator is the authenticated admin, not the body's `userId`. */
  function Created(q: NewClass, actor: Id): ClassRecord {
    ClassRecord(q.name, q.enrollmentKey, q.batch, q.teacherId, q.cityId, q.courseId, q.campusId,
                actor, None, [], [])
  }

  /** A class creation that passes every check keeps enrollment keys unique. */
  lemma AddClassKeepsKeysUnique(classes: map<Id, ClassRecord>, q: NewClass, admins: map<Id, Admins.Admin>,
                                teachers: map<Id, Teachers.Teacher>, cities: set<Id>,
                                campusCity: map<Id, Id>, courses: map<Id, Courses.Course>,
                                actor: Id, newId: Id)
    requires Unique(classes, EnrollmentKey) && newId !in classes
    requires AddClassError(classes, q, admins, teachers, cities, campusCity, courses).None?
    ensures Unique(classes[newId := Created(q, actor)], EnrollmentKey)
  {
    InsertKeepsUnique(classes, EnrollmentKey, newId, Created(q, actor));
  }

  /** The class after editClass by admin `actor`: each field sent replaces the stored one. */
  function Edited(c: ClassRecord, d: ClassEdit, actor: Id): ClassRecord {
    c.(name := Overwrite(c.name, d.className), enrollmentKey := Overwrite(c.enrollmentKey, d.enrollmentKey),
       batch := Overwrite(c.batch, d.batch), city := Overwrite(c.city, d.cityId),
       campus := Overwrite(c.campus, d.campusId), course := Overwrite(c.course, d.courseId),
       teacher := Overwrite(c.teacher, d.teacherId), updatedBy := Some(actor))
  }

  /**
    editClass does not look at the other classes' keys: an edit can give a
    class the key another class holds.
   */
  lemma EditMayDuplicateKey()
    ensures var c := ClassRecord(Text("a"), Text("k1"), Text("b"), Undefined, Undefined, Undefined,
                                 Undefined, "admin", None, [], []);
            var classes := map["c1" := c, "c2" := c.(enrollmentKey := Text("k2"))];
            var d := ClassEdit(Undefined, Text("k1"), Undefined, Undefined, Undefined, Undefined, Undefined);
            Unique(classes, EnrollmentKey)
            && !Unique(classes["c2" := Edited(classes["c2"], d, "admin")], EnrollmentKey)
  {
    var c := ClassRecord(Text("a"), Text("k1"), Text("b"), Undefined, Undefined, Undefined,
                         Undefined, "admin", None, [], []);
    var classes := map["c1" := c, "c2" := c.(enrollmentKey := Text("k2"))];
    var d := ClassEdit(Undefined, Text("k1"), Undefined, Undefined, Undefined, Undefined, Undefined);
    var after := classes["c2" := Edited(classes["c2"], d, "admin")];
    assert EnrollmentKey(after["c1"]) == EnrollmentKey(after["c2"]);
  }

  class ClassStore {
    var classes: map<Id, ClassRecord>

    constructor ()
      ensures classes == map[]
    {
      classes := map[];
    }

    /** No two classes share an enrollment key. */
    predicate Valid()
      reads this
    {
      Unique(classes, EnrollmentKey)
    }

    /**
      addClass by admin `actor`: on success the class is stored as `newId`
      and the teacher gets the class id and the campus id appended and
      ends verified; on failure nothing changes.
     */
    method AddClass(q: NewClass, actor: Id, admins: map<Id, Admins.Admin>, teachers: Teachers.TeacherStore,
                    catalog: Courses.Catalog, newId: Id) returns (r: Result<ClassRecord>)
      requires newId !in classes
      modifies this, teachers
      ensures var e := AddClassError(old(classes), q, admins, old(teachers.teachers), catalog.cities,
                                     catalog.campusCity, catalog.courses);
              if e.Some? then r == Fail(e.value) && classes == old(classes) && teachers.teachers == old(teachers.teachers)
              else
                var tid := q.teacherId.s;
                r == Ok(Created(q, actor)) && classes == old(classes)[newId := Created(q, actor)]
                && teachers.teachers == old(teachers.teachers)[tid := Teachers.Assigned(old(teachers.teachers)[tid], newId, q.campusId.s)]
      ensures r.Ok? ==> q.teacherId.s in teachers.teachers && teachers.teachers[q.teacherId.s].isVerified
                        && newId in teachers.teachers[q.teacherId.s].instructorOfClass
      ensures old(Valid()) ==> Valid()
    {
      var e := AddClassError(classes, q, admins, teachers.teachers, catalog.cities, catalog.campusCity, catalog.courses);
      if e.Some? {
        return Fail(e.value);
      }
      if Valid() {
        AddClassKeepsKeysUnique(classes, q, admins, teachers.teachers, catalog.cities, catalog.campusCity,
                                catalog.courses, actor, newId);
      }
      classes := classes[newId := Created(q, actor)];
      var tid := q.teacherId.s;
      var t := teachers.teachers[tid];
      t := t.(instructorOfClass := t.instructorOfClass + [newId]);
      t := t.(campus := t.campus + [q.campusId.s]);
      if t.isVerified == false {
        t := t.(isVerified := true);
      }
      teachers.teachers := teachers.teachers[tid := t];
      r := Ok(classes[newId]);
    }

    /** editClass: 404 for an unknown class; otherwise the fields sent are written and `updatedBy` set. */
    method EditClass(classId: Id, d: ClassEdit, actor: Id) returns (r: Result<ClassRecord>)
      modifies this
      ensures classId !in old(classes) ==> r == Fail(404) && classes == old(classes)
      ensures classId in old(classes) ==> classes == old(classes)[classId := Edited(old(classes)[classId], d, actor)]
                                          && r == Ok(classes[classId])
    {
      if classId !in classes {
        return Fail(404);
      }
      classes := classes[classId := Edited(classes[classId], d, actor)];
      r := Ok(classes[classId]);
    }

    /** deleteClass: 404 for an unknown class; otherwise it is removed. */
    method DeleteClass(classId: Id) returns (r: Result<()>)
      modifies this
      ensures classId !in old(classes) ==> r == Fail(404) && classes == old(classes)
      ensures classId in old(classes) ==> r == Ok(()) && classes == old(classes) - {classId}
      ensures old(Valid()) ==> Valid()
    {
      if classId !in classes {
        return Fail(404);
      }
      classes := classes - {classId};
      r := Ok(());
    }
  }
}

=== FILE: course.dfy ===
/**
  The course controller. A course keeps two id lists, the cities and the
  campuses it is offered in; every campus belongs to one city. Adding a
  (city, campus) pair creates a course or extends its lists, removing a
  campus may drop its city, and removing a city drops all its campuses.
 */
module Courses {
  import opened Js
  import opened Docs
  import opened Seqs
  import Admins

  datatype Course = Course(name: Field, city: seq<Id>, campus: seq<Id>, createdBy: Id)

  /** What a handler answers; `NoReply` when no branch sends a response. */
  datatype Reply = Sent(status: int) | NoReply

  /**
    The catalogue invariant: every campus a course lists exists and the
    city that campus belongs to is listed too.
   */
  predicate Linked(c: Course, campusCity: map<Id, Id>) {
    forall p :: p in c.campus ==> p in campusCity && campusCity[p] in c.city
  }

  /**
    addCourse's checks: 400 for a missing name, city id or campus id, then
    404 for an unknown city, campus or acting admin, in that order.
   */
  function AddCourseError(cities: set<Id>, campusCity: map<Id, Id>, admins: map<Id, Admins.Admin>,
                          name: Field, cityId: Field, campusId: Field, actor: Id): (e: Option<int>)
    ensures Falsy(name) || Falsy(cityId) || Falsy(campusId) ==> e == Some(400)
    ensures !Falsy(name) && !Falsy(cityId) && !Falsy(campusId) && e.Some? ==> e.value == 404
    ensures !Falsy(cityId) && !Falsy(campusId) && !Falsy(name) && cityId.s !in cities ==> e == Some(404)
    ensures e.None? <==> !Falsy(name) && !Falsy(cityId) && !Falsy(campusId)
                         && cityId.s in cities && campusId.s in campusCity && actor in admins
  {
    if Falsy(name) || Falsy(cityId) || Falsy(campusId) then Some(400)
    else if cityId.s !in cities then Some(404)
    else if campusId.s !in campusCity then Some(404)
    else if actor !in admins then Some(404)
    else None
  }

  /**
    addCourse on a course that already has the name: 400 when both ids are
    listed; the campus alone appended when only the city is; both appended
    when the city is not. Nothing is de-duplicated.
   */
  function Extend(c: Course, cityId: Id, campusId: Id): (r: Result<Course>)
    ensures r.Fail? <==> cityId in c.city && campusId in c.campus
    ensures r.Fail? ==> r.status == 400
    ensures r.Ok? ==> cityId in r.value.city && campusId in r.value.campus
    ensures r.Ok? ==> r.value.campus == c.campus + [campusId]
    ensures r.Ok? ==> r.value.city == if cityId in c.city then c.city else c.city + [cityId]
    ensures r.Ok? ==> r.value.name == c.name && r.value.createdBy == c.createdBy
  {
    if cityId in c.city && campusId in c.campus then Fail(400)
    else if cityId in c.city then Ok(c.(campus := c.campus + [campusId]))
    else Ok(c.(city := c.city + [cityId], campus := c.campus + [campusId]))
  }

  /** Adding a campus together with its own city keeps a course linked. */
  lemma ExtendKeepsLinked(c: Course, campusCity: map<Id, Id>, cityId: Id, campusId: Id)
    requires Linked(c, campusCity)
    requires campusId in campusCity && campusCity[campusId] == cityId
    requires Extend(c, cityId, campusId).Ok?
    ensures Linked(Extend(c, cityId, campusId).value, campusCity)
  {
    var r := Extend(c, cityId, campusId).value;
    forall p | p in r.campus
      ensures p in campusCity && campusCity[p] in r.city
    {
      if p != campusId {
        assert p in c.campus;
      }
    }
  }

  /** A fresh course made from a campus and its own city is linked. */
  lemma NewCourseLinked(name: Field, campusCity: map<Id, Id>, cityId: Id, campusId: Id, actor: Id)
    requires campusId in campusCity && campusCity[campusId] == cityId
    ensures Linked(Course(name, [cityId], [campusId], actor), campusCity)
  {
  }

  /** The campuses of the city `city` that course `c` lists. */
  function SameCityLinked(c: Course, campusCity: map<Id, Id>, city: Id): set<Id> {
    set p | p in campusCity && campusCity[p] == city && p in c.campus
  }

  /**
    deleteCourseCampus as written: it counts the course's campuses in the
    target campus's city; at one it drops the target campus and the city,
    above one the target campus alone, and at zero no branch runs.
   */
  function RemoveCampusAsWritten(c: Course, campusCity: map<Id, Id>, campusId: Id): (r: Option<Course>)
    requires campusId in campusCity
    ensures r.None? <==> SameCityLinked(c, campusCity, campusCity[campusId]) == {}
    ensures r.Some? ==> r.value.campus == Drop(c.campus, {campusId})
    ensures r.Some? ==> (campusCity[campusId] in r.value.city
                         <==> |SameCityLinked(c, campusCity, campusCity[campusId])| > 1
                              && campusCity[campusId] in c.city)
    ensures r.Some? ==> r.value.city == if |SameCityLinked(c, campusCity, campusCity[campusId])| == 1
                                        then Drop(c.city, {campusCity[campusId]}) else c.city
    ensures r.Some? ==> r.value.name == c.name && r.value.createdBy == c.createdBy
  {
    var n := |SameCityLinked(c, campusCity, campusCity[campusId])|;
    if n == 1 then
      Some(c.(campus := Drop(c.campus, {campusId}), city := Drop(c.city, {campusCity[campusId]})))
    else if n > 1 then Some(c.(campus := Drop(c.campus, {campusId})))
    else None
  }

  /**
    The count of one is reached when the only listed campus of the city
    is another campus than the one removed; the city is dropped anyway and
    the remaining campus is left without its city.
   */
  lemma RemoveCampusAsWrittenUnlinks()
    ensures var campusCity := map["P1" := "C", "P2" := "C"];
            var c := Course(Text("n"), ["C"], ["P1"], "a");
            Linked(c, campusCity)
            && RemoveCampusAsWritten(c, campusCity, "P2") == Some(Course(Text("n"), [], ["P1"], "a"))
            && !Linked(Course(Text("n"), [], ["P1"], "a"), campusCity)
  {
    var campusCity := map["P1" := "C", "P2" := "C"];
    var c := Course(Text("n"), ["C"], ["P1"], "a");
    var s := SameCityLinked(c, campusCity, "C");
    assert "P1" in s;
    assert forall p :: p in s ==> p == "P1";
    assert s == {"P1"};
    assert Drop(c.campus, {"P2"}) == ["P1"] by {
      assert Filter(["P1"], (x: Id) => x !in {"P2"}) == ["P1"] + Filter([], (x: Id) => x !in {"P2"});
    }
    assert Drop(c.city, {"C"}) == [] by {
      assert Filter(["C"], (x: Id) => x !in {"C"}) == Filter([], (x: Id) => x !in {"C"});
    }
  }

  /**
    deleteCourseCampus with the city dropped only when the removed campus
    is the one campus of its city the course lists; the rest as written.
   */
  function RemoveCampus(c: Course, campusCity: map<Id, Id>, campusId: Id): (r: Option<Course>)
    requires campusId in campusCity
    ensures r.None? <==> SameCityLinked(c, campusCity, campusCity[campusId]) == {}
    ensures r.Some? ==> r.value.campus == Drop(c.campus, {campusId}) && campusId !in r.value.campus
    ensures r.Some? ==> r.value.city == if SameCityLinked(c, campusCity, campusCity[campusId]) == {campusId}
                                        then Drop(c.city, {campusCity[campusId]}) else c.city
    ensures r.Some? ==> r.value.name == c.name && r.value.createdBy == c.createdBy
  {
    var linked := SameCityLinked(c, campusCity, campusCity[campusId]);
    if linked == {campusId} then
      Some(c.(campus := Drop(c.campus, {campusId}), city := Drop(c.city, {campusCity[campusId]})))
    else if |linked| >= 1 then Some(c.(campus := Drop(c.campus, {campusId})))
    else None
  }

  /** Removing a campus keeps a course linked. */
  lemma RemoveCampusKeepsLinked(c: Course, campusCity: map<Id, Id>, campusId: Id)
    requires campusId in campusCity && Linked(c, campusCity)
    requires RemoveCampus(c, campusCity, campusId).Some?
    ensures Linked(RemoveCampus(c, campusCity, campusId).value, campusCity)
  {
    var city := campusCity[campusId];
    var r := RemoveCampus(c, campusCity, campusId).value;
    forall p | p in r.campus
      ensures p in campusCity && campusCity[p] in r.city
    {
      assert p in c.campus && p != campusId;
      if campusCity[p] == city {
        assert p in SameCityLinked(c, campusCity, city);
      }
    }
  }

  /** The corrected removal differs from the written one only in the case shown above. */
  lemma RemoveCampusAgrees(c: Course, campusCity: map<Id, Id>, campusId: Id)
    requires campusId in campusCity && campusId in c.campus
    ensures RemoveCampus(c, campusCity, campusId) == RemoveCampusAsWritten(c, campusCity, campusId)
  {
    var linked := SameCityLinked(c, campusCity, campusCity[campusId]);
    assert campusId in linked;
    if |linked| == 1 {
      assert linked == {campusId} by {
        forall p | p in linked ensures p == campusId {
          if p != campusId {
            assert {p, campusId} <= linked;
            assert |{p, campusId}| == 2;
            SubsetCard({p, campusId}, linked);
          }
        }
      }
    } else {
      assert linked != {campusId};
    }
  }

  lemma SubsetCard(a: set<Id>, b: set<Id>)
    requires a <= b
    ensures |a| <= |b|
  {
    assert b == a + (b - a);
  }

  /** The campuses of city `cityId` (`Campus.find({ city: cityId })`). */
  function CampusesOf(campusCity: map<Id, Id>, cityId: Id): set<Id> {
    set p | p in campusCity && campusCity[p] == cityId
  }

  /**
    A course after its city `cityId` is removed: no campus of that city
    and not the city itself remains; the rest keeps its order.
   */
  function RemoveCity(c: Course, campusCity: map<Id, Id>, cityId: Id): Course {
    c.(campus := Drop(c.campus, CampusesOf(campusCity, cityId)), city := Drop(c.city, {cityId}))
  }

  /** Removing a city keeps a course linked, and neither the city nor any of its campuses remains. */
  lemma RemoveCityKeepsLinked(c: Course, campusCity: map<Id, Id>, cityId: Id)
    requires Linked(c, campusCity)
    ensures Linked(RemoveCity(c, campusCity, cityId), campusCity)
    ensures cityId !in RemoveCity(c, campusCity, cityId).city
    ensures forall p :: p in RemoveCity(c, campusCity, cityId).campus ==> campusCity[p] != cityId
  {
    var r := RemoveCity(c, campusCity, cityId);
    forall p | p in r.campus
      ensures p in campusCity && campusCity[p] in r.city
    {
      assert p in c.campus && p !in CampusesOf(campusCity, cityId);
    }
  }

  class Catalog {
    var cities: set<Id>
    var campusCity: map<Id, Id>
    var courses: map<Id, Course>

    constructor (cities: set<Id>, campusCity: map<Id, Id>)
      ensures this.cities == cities && this.campusCity == campusCity && courses == map[]
    {
      this.cities := cities;
      this.campusCity := campusCity;
      courses := map[];
    }

    /** Every course is linked. */
    predicate Valid()
      reads this
    {
      forall k :: k in courses ==> Linked(courses[k], campusCity)
    }

    /**
      addCourse by admin `actor`: after the checks, a course with the name
      is extended, or a new one is created as `newId`. Only the courses
      change, and they stay linked when the campus belongs to the city.
     */
    method AddCourse(name: Field, cityId: Field, campusId: Field, actor: Id,
                     admins: map<Id, Admins.Admin>, newId: Id) returns (r: Result<Id>)
      requires newId !in courses
      modifies this
      ensures cities == old(cities) && campusCity == old(campusCity)
      ensures var e := AddCourseError(cities, campusCity, admins, name, cityId, campusId, actor);
              e.Some? ==> r == Fail(e.value) && courses == old(courses)
      ensures AddCourseError(cities, campusCity, admins, name, cityId, campusId, actor).None?
              && !Held(old(courses), (c: Course) => c.name, name)
              ==> r == Ok(newId) && courses == old(courses)[newId := Course(name, [cityId.s], [campusId.s], actor)]
      ensures AddCourseError(cities, campusCity, admins, name, cityId, campusId, actor).None?
              && Held(old(courses), (c: Course) => c.name, name)
              ==> exists k :: k in old(courses) && Matches(old(courses)[k].name, name)
                              && var x := Extend(old(courses)[k], cityId.s, campusId.s);
                                 if x.Fail? then r == Fail(400) && courses == old(courses)
                                 else r == Ok(k) && courses == old(courses)[k := x.value]
      ensures (old(Valid()) && AddCourseError(cities, campusCity, admins, name, cityId, campusId, actor).None?
               && campusCity[campusId.s] == cityId.s) ==> Valid()
    {
      var e := AddCourseError(cities, campusCity, admins, name, cityId, campusId, actor);
      if e.Some? {
        return Fail(e.value);
      }
      if Held(courses, (c: Course) => c.name, name) {
        var id :| id in courses && Matches(courses[id].name, name);
        var c := courses[id];
        var hasCity := cityId.s in c.city;
        var hasCampus := campusId.s in c.campus;
        if hasCity && hasCampus {
          return Fail(400);
        }
        if hasCity && !hasCampus {
          c := c.(campus := c.campus + [campusId.s]);
        }
        if !hasCity {
          c := c.(city := c.city + [cityId.s]);
          c := c.(campus := c.campus + [campusId.s]);
        }
        assert Extend(courses[id], cityId.s, campusId.s) == Ok(c);
        if Valid() && campusCity[campusId.s] == cityId.s {
          ExtendKeepsLinked(courses[id], campusCity, cityId.s, campusId.s);
        }
        courses := courses[id := c];
        r := Ok(id);
      } else {
        courses := courses[newId := Course(name, [cityId.s], [campusId.s], actor)];
        r := Ok(newId);
      }
    }

    /** editCourse: 400 without a name; a missing course is answered with no course and no change. */
    method EditCourse(courseId: Id, courseName: Field) returns (r: Result<Option<Course>>)
      modifies this
      ensures cities == old(cities) && campusCity == old(campusCity)
      ensures Falsy(courseName) ==> r == Fail(400) && courses == old(courses)
      ensures !Falsy(courseName) && courseId !in old(courses) ==> r == Ok(None) && courses == old(courses)
      ensures !Falsy(courseName) && courseId in old(courses)
              ==> courses == old(courses)[courseId := old(courses)[courseId].(name := courseName)]
                  && r == Ok(Some(courses[courseId]))
      ensures old(Valid()) ==> Valid()
    {
      if Falsy(courseName) {
        return Fail(400);
      }
      if courseId !in courses {
        return Ok(None);
      }
      courses := courses[courseId := courses[courseId].(name := courseName)];
      r := Ok(Some(courses[courseId]));
    }

    /** deleteCourse: always 200, whether or not the course existed. */
    method DeleteCourse(courseId: Id) returns (status: int)
      modifies this
      ensures status == 200
      ensures cities == old(cities) && campusCity == old(campusCity) && courses == old(courses) - {courseId}
      ensures old(Valid()) ==> Valid()
    {
      courses := courses - {courseId};
      status := 200;
    }

    /**
      deleteCourseCampus: 404 for an unknown course or campus; otherwise
      the campus is removed from the course, and its city with it when it
      was the one campus of that city the course listed. When the course
      lists no campus of that city, no response is sent.
     */
    method DeleteCourseCampus(courseId: Id, campusId: Id) returns (r: Reply)
      modifies this
      ensures cities == old(cities) && campusCity == old(campusCity)
      ensures courseId !in old(courses) || campusId !in campusCity ==> r == Sent(404) && courses == old(courses)
      ensures courseId in old(courses) && campusId in campusCity
              ==> var after := RemoveCampus(old(courses)[courseId], campusCity, campusId);
                  if after.Some? then r == Sent(200) && courses == old(courses)[courseId := after.value]
                  else r == NoReply && courses == old(courses)
      ensures old(Valid()) ==> Valid()
    {
      if courseId !in courses || campusId !in campusCity {
        return Sent(404);
      }
      var c := courses[courseId];
      var city := campusCity[campusId];
      var linked := SameCityLinked(c, campusCity, city);
      if |linked| == 0 {
        return NoReply;
      }
      c := c.(campus := Drop(c.campus, {campusId}));
      if linked == {campusId} {
        c := c.(city := Drop(c.city, {city}));
      }
      if Valid() {
        RemoveCampusKeepsLinked(courses[courseId], campusCity, campusId);
      }
      courses := courses[courseId := c];
      r := Sent(200);
    }

    /**
      deleteCourseCity: 404 for an empty id or an unknown course; otherwise
      the city's campuses are collected from the course, every occurrence
      of them is filtered out, and the city is filtered out of the city list.
     */
    method DeleteCourseCity(courseId: Id, cityId: Id) returns (r: Result<Course>)
      modifies this
      ensures cities == old(cities) && campusCity == old(campusCity)
      ensures cityId == "" || courseId == "" || courseId !in old(courses) ==> r == Fail(404) && courses == old(courses)
      ensures cityId != "" && courseId != "" && courseId in old(courses)
              ==> courses == old(courses)[courseId := RemoveCity(old(courses)[courseId], campusCity, cityId)]
                  && r == Ok(courses[courseId])
      ensures old(Valid()) ==> Valid()
    {
      if cityId == "" || courseId == "" || courseId !in courses {
        return Fail(404);
      }
      var c := courses[courseId];
      var ofCity := CampusesOf(campusCity, cityId);
      var toDelete := Filter(c.campus, id => id in ofCity);
      FilterAgree(c.campus, id => id !in toDelete, x => x !in ofCity);
      c := c.(campus := Filter(c.campus, id => id !in toDelete));
      c := c.(city := Drop(c.city, {cityId}));
      if Valid() {
        RemoveCityKeepsLinked(courses[courseId], campusCity, cityId);
      }
      courses := courses[courseId := c];
      r := Ok(c);
    }
  }
}

=== FILE: docs.dfy ===
/**
  The two document-store operations the handlers build on, over a
  collection held as a map from id to record: `findOne` on one field
  (does a record hold this value?) and `findByIdAndUpdate` with a body
  field (an update whose value is undefined leaves the stored value alone).
 */
module Docs {
  import opened Js

  type Id = string

  /**
    A stored field matches a query value. A query on undefined or null
    matches a field that is absent or null, as a MongoDB query on null does.
   */
  predicate Matches(stored: Field, query: Field) {
    if query.Text? then stored == query else !stored.Text?
  }

  /** `Model.findOne({ key: v })` finds a record. */
  predicate Held<R>(records: map<Id, R>, key: R -> Field, v: Field) {
    exists k :: k in records && Matches(key(records[k]), v)
  }

  /**
    `findOne({ key: v })` finds a record other than `self`; for a value
    held by at most one record this is exactly "the record found is not
    the caller's".
   */
  predicate HeldByOther<R>(records: map<Id, R>, key: R -> Field, v: Field, self: Id) {
    exists k :: k in records && k != self && Matches(key(records[k]), v)
  }

  /** No two records hold the same text under `key` (what a unique index keeps). */
  predicate Unique<R>(records: map<Id, R>, key: R -> Field) {
    forall a, b :: a in records && b in records && a != b && key(records[a]).Text?
                   ==> key(records[a]) != key(records[b])
  }

  /**
    The checks of the admin and teacher updateProfileDetails handlers:
    400 when one of `fields` is blank, 409 when another record holds the
    username or the email sent, 400 when the caller's own record is gone.
   */
  function ProfileError<R>(records: map<Id, R>, self: Id, fields: seq<Field>,
                           username: R -> Field, newUsername: Field,
                           email: R -> Field, newEmail: Field): (e: Option<int>)
    ensures AnyBlank(fields) ==> e == Some(400)
    ensures !AnyBlank(fields)
            && (HeldByOther(records, username, newUsername, self) || HeldByOther(records, email, newEmail, self))
            ==> e == Some(409)
    ensures !AnyBlank(fields) && !HeldByOther(records, username, newUsername, self)
            && !HeldByOther(records, email, newEmail, self) && self !in records
            ==> e == Some(400)
    ensures e.Some? ==> e.value == 400 || e.value == 409
    ensures e.None? <==> !AnyBlank(fields) && self in records
                         && !HeldByOther(records, username, newUsername, self)
                         && !HeldByOther(records, email, newEmail, self)
  {
    if AnyBlank(fields) then Some(400)
    else if HeldByOther(records, username, newUsername, self) then Some(409)
    else if HeldByOther(records, email, newEmail, self) then Some(409)
    else if self !in records then Some(400)
    else None
  }

  /** The stored value after an update that sets it to `f`. */
  function Overwrite(stored: Field, f: Field): Field {
    if f.Undefined? then stored else f
  }

  /** Inserting a record whose value no record holds keeps the values unique. */
  lemma InsertKeepsUnique<R>(records: map<Id, R>, key: R -> Field, id: Id, rec: R)
    requires Unique(records, key) && id !in records && !Held(records, key, key(rec))
    ensures Unique(records[id := rec], key)
  {
    var m := records[id := rec];
    forall a, b | a in m && b in m && a != b && key(m[a]).Text?
      ensures key(m[a]) != key(m[b])
    {
      if a == id {
        assert !Matches(key(records[b]), key(rec));
      } else if b == id {
        if key(m[a]) == key(rec) {
          assert Matches(key(records[a]), key(rec));
        }
      }
    }
  }

  /**
    Replacing the record `self` by one whose value no other record holds
    keeps the values unique.
   */
  lemma ReplaceKeepsUnique<R>(records: map<Id, R>, key: R -> Field, self: Id, rec: R)
    requires Unique(records, key) && !HeldByOther(records, key, key(rec), self)
    ensures Unique(records[self := rec], key)
  {
    var m := records[self := rec];
    forall a, b | a in m && b in m && a != b && key(m[a]).Text?
      ensures key(m[a]) != key(m[b])
    {
      if a == self {
        assert !Matches(key(records[b]), key(rec));
      }
    }
  }

  /**
    An update that leaves the record's value as it was keeps the values
    unique whatever else it changes.
   */
  lemma SameValueKeepsUnique<R>(records: map<Id, R>, key: R -> Field, self: Id, rec: R)
    requires Unique(records, key) && self in records && key(rec) == key(records[self])
    ensures Unique(records[self := rec], key)
  {
  }
}

=== FILE: js.dfy ===
/**
  JavaScript value semantics that the controllers rely on: the values a
  request body, cookie or header can carry, `!x` (falsiness),
  `String(x).trim() === ""`, and `String.prototype.replace` with a string
  pattern (which replaces only the first occurrence).
 */
module Js {

  /** A value read from a request body, a cookie or a header. */
  datatype Field = Undefined | Null | Text(s: string)

  datatype Option<+T> = None | Some(value: T)

  /** The outcome of a handler: a value, or the HTTP status of the error it throws. */
  datatype Result<+T> = Ok(value: T) | Fail(status: int)

  /** `!x` for the values above: undefined, null and "" are falsy. */
  predicate Falsy(f: Field) {
    f.Undefined? || f.Null? || f.s == ""
  }

  /** `String(x)`. */
  function StringOf(f: Field): string {
    match f
    case Undefined => "undefined"
    case Null => "null"
    case Text(s) => s
  }

  /** The characters `String.prototype.trim` removes (white space and line terminators). */
  predicate IsSpace(c: char) {
    c == ' ' || c == '\t' || c == '\n' || c == '\r' || c == '\U{000B}' || c == '\U{000C}'
    || c == '\U{00A0}' || c == '\U{1680}' || ('\U{2000}' <= c <= '\U{200A}')
    || c == '\U{2028}' || c == '\U{2029}' || c == '\U{202F}' || c == '\U{205F}'
    || c == '\U{3000}' || c == '\U{FEFF}'
  }

  predicate AllSpace(s: string) {
    forall i :: 0 <= i < |s| ==> IsSpace(s[i])
  }

  function TrimStart(s: string): (r: string)
    ensures |r| <= |s| && r == s[|s| - |r|..]
    ensures r == [] || !IsSpace(r[0])
    ensures AllSpace(s[..|s| - |r|])
  {
    if |s| > 0 && IsSpace(s[0]) then TrimStart(s[1..]) else s
  }

  function TrimEnd(s: string): (r: string)
    ensures |r| <= |s| && r == s[..|r|]
    ensures r == [] || !IsSpace(r[|r| - 1])
    ensures AllSpace(s[|r|..])
  {
    if |s| > 0 && IsSpace(s[|s| - 1]) then
      var r := TrimEnd(s[..|s| - 1]);
      assert s[|r|..] == s[..|s| - 1][|r|..] + [s[|s| - 1]];
      r
    else s
  }

  /** `String.prototype.trim`. */
  function Trim(s: string): string {
    TrimEnd(TrimStart(s))
  }

  lemma {:induction false} TrimStartEmptyIff(s: string)
    ensures TrimStart(s) == [] <==> AllSpace(s)
  {
    if |s| > 0 && IsSpace(s[0]) {
      TrimStartEmptyIff(s[1..]);
      if AllSpace(s[1..]) {
        forall i | 0 <= i < |s| ensures IsSpace(s[i]) {
          if i > 0 { assert s[i] == s[1..][i - 1]; }
        }
      }
    }
  }

  /** A string trims to "" exactly when every character of it is white space. */
  lemma {:induction false} TrimEmptyIff(s: string)
    ensures Trim(s) == [] <==> AllSpace(s)
  {
    TrimStartEmptyIff(s);
    var t := TrimStart(s);
    if t != [] {
      // t starts with a non-space character, which TrimEnd never removes
      assert !IsSpace(t[0]);
      if TrimEnd(t) == [] {
        TrimEndKeepsNonSpace(t);
      }
    }
  }

  lemma {:induction false} TrimEndKeepsNonSpace(t: string)
    requires t != [] && !IsSpace(t[0])
    ensures TrimEnd(t) != []
  {
    if |t| > 1 && IsSpace(t[|t| - 1]) {
      TrimEndKeepsNonSpace(t[..|t| - 1]);
    }
  }

  /**
    `String(x).trim() === ""`: true only for text made of white space
    alone. An absent field is "undefined" and a null one is "null", so
    neither is blank.
   */
  predicate Blank(f: Field)
    ensures Blank(f) <==> f.Text? && AllSpace(f.s)
  {
    TrimEmptyIff(StringOf(f));
    assert !IsSpace('u') && !IsSpace('n');
    Trim(StringOf(f)) == []
  }

  /** `[...].some((field) => String(field).trim() === "")`. */
  predicate AnyBlank(fields: seq<Field>) {
    exists i :: 0 <= i < |fields| && Blank(fields[i])
  }

  /** `pat` occurs in `s` at position `i`. */
  predicate OccursAt(s: string, pat: string, i: int) {
    0 <= i && i + |pat| <= |s| && s[i..i + |pat|] == pat
  }

  /** The position of the first occurrence of `pat` in `s`, if any. */
  function FirstOccurrence(s: string, pat: string): (k: Option<nat>)
    requires pat != []
    ensures k.Some? ==> OccursAt(s, pat, k.value) && forall j :: 0 <= j < k.value ==> !OccursAt(s, pat, j)
    ensures k.None? ==> forall i :: !OccursAt(s, pat, i)
    decreases |s|
  {
    if |s| < |pat| then None
    else if s[..|pat|] == pat then Some(0)
    else
      var rest := FirstOccurrence(s[1..], pat);
      ShiftOccurs(s, pat);
      assert !OccursAt(s, pat, 0);
      assert forall i :: 1 <= i ==> (OccursAt(s, pat, i) <==> OccursAt(s[1..], pat, i - 1));
      if rest.None? then None else Some(rest.value + 1)
  }

  /**
    `s.replace(pat, rep)` with a string pattern: the first occurrence of
    `pat` is replaced and the rest of `s` is kept; without an occurrence
    `s` is returned as it is.
   */
  function ReplaceFirst(s: string, pat: string, rep: string): (r: string)
    requires pat != []
    ensures var k := FirstOccurrence(s, pat);
            if k.None? then r == s else r == s[..k.value] + rep + s[k.value + |pat|..]
    decreases |s|
  {
    if |s| < |pat| then s
    else if s[..|pat|] == pat then rep + s[|pat|..]
    else
      var rest := ReplaceFirst(s[1..], pat, rep);
      var t := s[1..];
      var k := FirstOccurrence(t, pat);
      assert k.Some? ==> [s[0]] + t[..k.value] == s[..k.value + 1]
                         && t[k.value + |pat|..] == s[k.value + 1 + |pat|..];
      assert [s[0]] + t == s;
      [s[0]] + rest
  }

  lemma ShiftOccurs(s: string, pat: string)
    requires s != []
    ensures forall i :: 0 <= i ==> (OccursAt(s[1..], pat, i) <==> OccursAt(s, pat, i + 1))
  {
    forall i | 0 <= i ensures OccursAt(s[1..], pat, i) <==> OccursAt(s, pat, i + 1) {
      if i + |pat| <= |s[1..]| {
        assert s[1..][i..i + |pat|] == s[i + 1..i + 1 + |pat|];
      }
    }
  }
}

=== FILE: seqs.dfy ===
/**
  `Array.prototype.filter` on id lists and query results: a filter keeps
  exactly the elements that satisfy its predicate, in their original
  order, each as often as it occurred.
 */
module Seqs {

  function Filter<T(!new)>(s: seq<T>, keep: T -> bool): (r: seq<T>)
    ensures |r| <= |s|
    ensures forall x :: x in r <==> x in s && keep(x)
  {
    if s == [] then []
    else if keep(s[0]) then [s[0]] + Filter(s[1..], keep)
    else Filter(s[1..], keep)
  }

  /** Filtering distributes over concatenation: what is kept stays in order. */
  lemma {:induction false} FilterAppend<T(!new)>(a: seq<T>, b: seq<T>, keep: T -> bool)
    ensures Filter(a + b, keep) == Filter(a, keep) + Filter(b, keep)
  {
    if a == [] {
      assert a + b == b;
    } else {
      assert (a + b)[0] == a[0];
      assert (a + b)[1..] == a[1..] + b;
      FilterAppend(a[1..], b, keep);
    }
  }

  /** Two predicates that agree on the elements of `s` filter it alike. */
  lemma {:induction false} FilterAgree<T(!new)>(s: seq<T>, p: T -> bool, q: T -> bool)
    requires forall x :: x in s ==> (p(x) <==> q(x))
    ensures Filter(s, p) == Filter(s, q)
  {
    if s != [] {
      assert forall x :: x in s[1..] ==> x in s;
      FilterAgree(s[1..], p, q);
    }
  }

  /** `s.filter((id) => !gone.includes(id))`: every occurrence of the ids in `gone` removed. */
  function Drop<T(!new)>(s: seq<T>, gone: set<T>): (r: seq<T>)
    ensures forall x :: x in r <==> x in s && x !in gone
    ensures |r| <= |s|
  {
    Filter(s, x => x !in gone)
  }

  /** Dropping keeps the order of what remains: it distributes over concatenation. */
  lemma DropAppend<T(!new)>(a: seq<T>, b: seq<T>, gone: set<T>)
    ensures Drop(a + b, gone) == Drop(a, gone) + Drop(b, gone)
  {
    FilterAppend(a, b, x => x !in gone);
  }

  /** A filter whose predicate holds of no element keeps nothing. */
  lemma {:induction false} FilterNone<T(!new)>(s: seq<T>, keep: T -> bool)
    requires forall x :: x in s ==> !keep(x)
    ensures Filter(s, keep) == []
  {
    if s != [] {
      assert forall x :: x in s[1..] ==> x in s;
      FilterNone(s[1..], keep);
    }
  }
}

=== FILE: sessions.dfy ===
/**
  The refresh-token protocol shared by the admin, teacher and student
  controllers. Each user record stores at most one refresh token; a
  refresh request is honoured only when the token it carries verifies to
  a user whose stored token is that very string, and then the stored
  token is replaced by a newly issued one.

  Signature checking is not modelled: `verify` maps each token that
  verifies under the refresh secret to the user id in its payload, and
  newly issued tokens are opaque strings chosen by the caller.
 */
module Sessions {
  import opened Js

  type Id = string
  type Token = string

  /** The places a refresh request may carry its token. */
  datatype Carrier = Carrier(cookie: Field, body: Field, authorization: Field)

  const Bearer: string := "Bearer "

  /** The pair of tokens a login or refresh hands back. */
  datatype TokenPair = TokenPair(accessToken: Token, refreshToken: Token)

  /**
    `req.cookies.refreshToken || req.body.refreshToken
     || req.header("Authorization")?.replace("Bearer ", "")`, followed by the
    `!incomingRefreshToken` test: the token the handler goes on with, or
    None when it answers 401 "unauthorized request". The teacher handler
    has no third operand (`headerAllowed` false).
   */
  function Incoming(c: Carrier, headerAllowed: bool): (r: Option<Token>)
    ensures r.Some? ==> r.value != ""
    ensures !Falsy(c.cookie) ==> r == Some(c.cookie.s)
    ensures Falsy(c.cookie) && !Falsy(c.body) ==> r == Some(c.body.s)
    ensures !headerAllowed ==> (r.Some? <==> !Falsy(c.cookie) || !Falsy(c.body))
    ensures headerAllowed && Falsy(c.cookie) && Falsy(c.body)
            ==> r == if c.authorization.Text? && ReplaceFirst(c.authorization.s, Bearer, "") != ""
                     then Some(ReplaceFirst(c.authorization.s, Bearer, "")) else None
  {
    if !Falsy(c.cookie) then Some(c.cookie.s)
    else if !Falsy(c.body) then Some(c.body.s)
    else if headerAllowed && c.authorization.Text? then
      var t := ReplaceFirst(c.authorization.s, Bearer, "");
      if t == "" then None else Some(t)
    else None
  }

  /** A header `Bearer <t>` alone yields `t`. */
  lemma BearerHeaderYieldsToken(t: Token)
    requires t != ""
    ensures Incoming(Carrier(Undefined, Undefined, Text(Bearer + t)), true) == Some(t)
  {
    var h := Bearer + t;
    assert h[..|Bearer|] == Bearer;
    assert FirstOccurrence(h, Bearer) == Some(0);
    assert h[|Bearer|..] == t;
    assert ReplaceFirst(h, Bearer, "") == h[..0] + "" + h[|Bearer|..];
    assert ReplaceFirst(h, Bearer, "") == t;
  }

  /** The header is used verbatim when it contains no "Bearer " at all. */
  lemma HeaderWithoutBearerKept(h: string)
    requires h != "" && forall i :: !OccursAt(h, Bearer, i)
    ensures Incoming(Carrier(Undefined, Undefined, Text(h)), true) == Some(h)
  {
  }

  /** What a refresh request leads to once its token is known. */
  datatype Verdict = Rotate(user: Id) | Reject(status: int)

  /**
    The checks of a refresh handler after the incoming token is
    extracted: no token, a token that does not verify, a user that does
    not exist, or a token other than the stored one all end in 401 (the
    handler's catch turns every error into 401); otherwise the user whose
    token is rotated.
   */
  function Decide<R>(incoming: Option<Token>, verify: map<Token, Id>, users: map<Id, R>,
                     stored: R -> Option<Token>): (v: Verdict)
    ensures v.Rotate? <==> incoming.Some? && incoming.value in verify
                           && verify[incoming.value] in users
                           && stored(users[verify[incoming.value]]) == Some(incoming.value)
    ensures v.Rotate? ==> v.user == verify[incoming.value]
    ensures v.Reject? ==> v.status == 401
  {
    if incoming.None? then Reject(401)
    else if incoming.value !in verify then Reject(401)
    else if verify[incoming.value] !in users then Reject(401)
    else if stored(users[verify[incoming.value]]) != Some(incoming.value) then Reject(401)
    else Rotate(verify[incoming.value])
  }

  /** After logout (no stored token) no token of that user is accepted. */
  lemma LoggedOutUserRejected<R>(t: Token, verify: map<Token, Id>, users: map<Id, R>,
                                 stored: R -> Option<Token>)
    requires t in verify && verify[t] in users && stored(users[verify[t]]).None?
    ensures Decide(Some(t), verify, users, stored) == Reject(401)
  {
  }

  /**
    Once a user's stored token has been replaced by `next`, a previously
    accepted token `t` is rejected unless the new token happens to be the
    same string.
   */
  lemma RotatedTokenRejected<R>(t: Token, next: Token, verify: map<Token, Id>, users: map<Id, R>,
                                rec: R, stored: R -> Option<Token>)
    requires Decide(Some(t), verify, users, stored).Rotate?
    requires stored(rec) == Some(next) && next != t
    ensures Decide(Some(t), verify, users[verify[t] := rec], stored) == Reject(401)
  {
  }
}

=== FILE: student.dfy ===
/**
  The student controller: registration (which logs the new student in),
  login, logout, refresh-token rotation, profile updates, the deletion
  guard for enrolled students and the per-class performance summary.
 */
module Students {
  import opened Js
  import opened Docs
  import opened Seqs
  import Sessions
  import Classes

  type Token = Sessions.Token

  /**
    A student record. `enrolledInClass` is null until the student joins
    a class.
   */
  datatype Student = Student(
    city: Field, course: Field, campus: Field, fullName: Field, fatherName: Field,
    username: Field, email: Field, phoneNumber: Field, CNIC: Field, gender: Field,
    address: Field, lastQualification: Field, password: Field, dob: Field, phone: Field,
    profile: string, enrolledInClass: Field, refreshToken: Option<Token>)

  datatype Registration = Registration(
    city: Field, course: Field, campus: Field, fullName: Field, fatherName: Field,
    username: Field, email: Field, phoneNumber: Field, CNIC: Field, gender: Field,
    address: Field, lastQualification: Field, password: Field, dob: Field)

  datatype ProfileDetails = ProfileDetails(
    fullName: Field, fatherName: Field, email: Field, phone: Field, gender: Field,
    username: Field, lastQualification: Field, CNIC: Field, address: Field, dob: Field)

  function Username(s: Student): Field { s.username }
  function Email(s: Student): Field { s.email }
  function Cnic(s: Student): Field { s.CNIC }
  function StoredToken(s: Student): Option<Token> { s.refreshToken }

  function RegistrationFields(q: Registration): seq<Field> {
    [q.city, q.course, q.campus, q.fullName, q.fatherName, q.username, q.email,
     q.phoneNumber, q.CNIC, q.gender, q.address, q.lastQualification, q.password, q.dob]
  }

  /** `Student.findOne({ username, CNIC })`: one record matches both. */
  predicate HeldPair(students: map<Id, Student>, username: Field, cnic: Field) {
    exists k :: k in students && Matches(students[k].username, username) && Matches(students[k].CNIC, cnic)
  }

  /**
    registerStudent's checks: 400 when a field is blank, 400 when one
    student has both the username and the CNIC, 400 without a profile
    file or when its upload fails.
   */
  function RegisterError(students: map<Id, Student>, q: Registration, hasFile: bool, uploaded: bool)
    : (e: Option<int>)
    ensures AnyBlank(RegistrationFields(q)) ==> e == Some(400)
    ensures HeldPair(students, q.username, q.CNIC) ==> e == Some(400)
    ensures e.Some? ==> e.value == 400
    ensures e.None? <==> !AnyBlank(RegistrationFields(q)) && !HeldPair(students, q.username, q.CNIC)
                         && hasFile && uploaded
  {
    if AnyBlank(RegistrationFields(q)) then Some(400)
    else if HeldPair(students, q.username, q.CNIC) then Some(400)
    else if !hasFile then Some(400)
    else if !uploaded then Some(400)
    else None
  }

  /**
    The duplicate check needs both values on one record: a student with
    the username of another but a different CNIC passes it, and then two
    students share the username.
   */
  lemma UsernameAloneNotADuplicate(students: map<Id, Student>, q: Registration, url: string, newId: Id)
    requires newId !in students && q.CNIC.Text? && q.username.Text?
    requires !AnyBlank(RegistrationFields(q))
    requires forall k :: k in students ==> students[k].CNIC != q.CNIC
    requires exists k :: k in students && students[k].username == q.username
    ensures RegisterError(students, q, true, true).None?
    ensures !Unique(students[newId := Created(q, url)], Username)
  {
    var k :| k in students && students[k].username == q.username;
    var after := students[newId := Created(q, url)];
    assert k != newId && after[k].username == after[newId].username;
  }

  /** The record registerStudent saves; `enrolledInClass` starts null. */
  function Created(q: Registration, url: string): Student {
    Student(q.city, q.course, q.campus, q.fullName, q.fatherName, q.username, q.email,
            q.phoneNumber, q.CNIC, q.gender, q.address, q.lastQualification, q.password, q.dob,
            Undefined, url, Null, None)
  }

  function DetailFields(d: ProfileDetails): seq<Field> {
    [d.fullName, d.fatherName, d.email, d.phone, d.gender, d.username, d.lastQualification,
     d.CNIC, d.address, d.dob]
  }

  /**
    updateProfileDetails' checks: 400 when a field is blank, 409 when the
    username, the email or the CNIC is held by another student, 400 when
    the caller's record is gone.
   */
  function DetailsError(students: map<Id, Student>, self: Id, d: ProfileDetails): (e: Option<int>)
    ensures AnyBlank(DetailFields(d)) ==> e == Some(400)
    ensures !AnyBlank(DetailFields(d))
            && (HeldByOther(students, Username, d.username, self) || HeldByOther(students, Email, d.email, self)
                || HeldByOther(students, Cnic, d.CNIC, self))
            ==> e == Some(409)
    ensures !AnyBlank(DetailFields(d)) && !HeldByOther(students, Username, d.username, self)
            && !HeldByOther(students, Email, d.email, self) && !HeldByOther(students, Cnic, d.CNIC, self)
            && self !in students
            ==> e == Some(400)
    ensures e.Some? ==> e.value == 400 || e.value == 409
    ensures e.None? <==> !AnyBlank(DetailFields(d)) && self in students
                         && !HeldByOther(students, Username, d.username, self)
                         && !HeldByOther(students, Email, d.email, self)
                         && !HeldByOther(students, Cnic, d.CNIC, self)
  {
    if AnyBlank(DetailFields(d)) then Some(400)
    else if HeldByOther(students, Username, d.username, self) then Some(409)
    else if HeldByOther(students, Email, d.email, self) then Some(409)
    else if HeldByOther(students, Cnic, d.CNIC, self) then Some(409)
    else if self !in students then Some(400)
    else None
  }

  /** Resubmitting one's own username, email and CNIC is accepted while they are unique. */
  lemma OwnValuesAccepted(students: map<Id, Student>, self: Id, d: ProfileDetails)
    requires self in students && !AnyBlank(DetailFields(d))
    requires Unique(students, Username) && Unique(students, Email) && Unique(students, Cnic)
    requires d.username == students[self].username && d.email == students[self].email
             && d.CNIC == students[self].CNIC
    requires d.username.Text? && d.email.Text? && d.CNIC.Text?
    ensures DetailsError(students, self, d) == None
  {
  }

  function WithDetails(s: Student, d: ProfileDetails): Student {
    s.(fullName := Overwrite(s.fullName, d.fullName), fatherName := Overwrite(s.fatherName, d.fatherName),
       email := Overwrite(s.email, d.email), phone := Overwrite(s.phone, d.phone),
       gender := Overwrite(s.gender, d.gender), username := Overwrite(s.username, d.username),
       lastQualification := Overwrite(s.lastQualification, d.lastQualification),
       CNIC := Overwrite(s.CNIC, d.CNIC), address := Overwrite(s.address, d.address),
       dob := Overwrite(s.dob, d.dob))
  }

  /** A profile update that passes every check keeps usernames, emails and CNICs unique. */
  lemma ProfileUpdateKeepsUnique(students: map<Id, Student>, self: Id, d: ProfileDetails)
    requires Unique(students, Username) && Unique(students, Email) && Unique(students, Cnic)
    requires DetailsError(students, self, d).None?
    ensures Unique(students[self := WithDetails(students[self], d)], Username)
    ensures Unique(students[self := WithDetails(students[self], d)], Email)
    ensures Unique(students[self := WithDetails(students[self], d)], Cnic)
  {
    var rec := WithDetails(students[self], d);
    if d.username.Undefined? {
      SameValueKeepsUnique(students, Username, self, rec);
    } else {
      ReplaceKeepsUnique(students, Username, self, rec);
    }
    if d.email.Undefined? {
      SameValueKeepsUnique(students, Email, self, rec);
    } else {
      ReplaceKeepsUnique(students, Email, self, rec);
    }
    if d.CNIC.Undefined? {
      SameValueKeepsUnique(students, Cnic, self, rec);
    } else {
      ReplaceKeepsUnique(students, Cnic, self, rec);
    }
  }

  /** deleteStudent's checks: 401 without an id, 404 for an unknown or an enrolled student. */
  function DeleteError(students: map<Id, Student>, studentId: Id): (e: Option<int>)
    ensures e.None? <==> studentId != "" && studentId in students && students[studentId].enrolledInClass == Null
    ensures studentId != "" && studentId in students && students[studentId].enrolledInClass != Null
            ==> e == Some(404)
    ensures e.Some? ==> e.value == (if studentId == "" then 401 else 404)
  {
    if studentId == "" then Some(401)
    else if studentId !in students then Some(404)
    else if students[studentId].enrolledInClass != Null then Some(404)
    else None
  }

  /** One student's submission of an assignment. */
  datatype Submission = Submission(studentId: Id, marks: Field, link: Field, submissionDate: Field)

  datatype Assignment = Assignment(className: Id, title: Field, description: Field, submittedBy: seq<Submission>)

  /** One entry of the submitted-assignments list. */
  datatype Entry = Entry(title: Field, description: Field, marks: Field, link: Field, submissionDate: Field)

  datatype Performance = Performance(
    totalAssignments: nat, submittedAssignmentsCount: nat, studentInfo: Option<Student>,
    submittedAssignments: seq<Entry>)

  predicate SubmittedBy(subs: seq<Submission>, studentId: Id) {
    exists i :: 0 <= i < |subs| && subs[i].studentId == studentId
  }

  /**
    The query `{ className: classId, 'submittedBy.studentId': studentId }`:
    an assignment of the class that the student has submitted.
   */
  predicate Submitted(a: Assignment, classId: Id, studentId: Id) {
    a.className == classId && SubmittedBy(a.submittedBy, studentId)
  }

  /** The query as a filter predicate. */
  function SubmittedTo(classId: Id, studentId: Id): Assignment -> bool {
    a => Submitted(a, classId, studentId)
  }

  /** The position the `submittedBy.$` projection keeps: the student's first submission. */
  function FirstSubmission(subs: seq<Submission>, studentId: Id): (i: nat)
    requires SubmittedBy(subs, studentId)
    ensures i < |subs| && subs[i].studentId == studentId
    ensures forall j :: 0 <= j < i ==> subs[j].studentId != studentId
  {
    if subs[0].studentId == studentId then 0
    else
      var k :| 0 <= k < |subs| && subs[k].studentId == studentId;
      assert subs[1..][k - 1].studentId == studentId;
      1 + FirstSubmission(subs[1..], studentId)
  }

  /** The entry reported for an assignment: its title and description with the student's own submission. */
  function EntryOf(a: Assignment, studentId: Id): (e: Entry)
    requires SubmittedBy(a.submittedBy, studentId)
    ensures Submission(studentId, e.marks, e.link, e.submissionDate) in a.submittedBy
    ensures exists i :: 0 <= i < |a.submittedBy|
                        && a.submittedBy[i] == Submission(studentId, e.marks, e.link, e.submissionDate)
                        && forall j :: 0 <= j < i ==> a.submittedBy[j].studentId != studentId
    ensures e.title == a.title && e.description == a.description
  {
    var s := a.submittedBy[FirstSubmission(a.submittedBy, studentId)];
    Entry(a.title, a.description, s.marks, s.link, s.submissionDate)
  }

  function Entries(qs: seq<Assignment>, studentId: Id): (r: seq<Entry>)
    requires forall a :: a in qs ==> SubmittedBy(a.submittedBy, studentId)
    ensures |r| == |qs|
    ensures forall j :: 0 <= j < |qs| ==> r[j] == EntryOf(qs[j], studentId)
  {
    if qs == [] then [] else [EntryOf(qs[0], studentId)] + Entries(qs[1..], studentId)
  }

  /**
    An entry comes from an assignment of the class and carries the
    student's own submission, never another student's marks.
   */
  predicate Reported(e: Entry, assignments: seq<Assignment>, classId: Id, studentId: Id) {
    exists a :: a in assignments && a.className == classId && a.title == e.title
                && a.description == e.description
                && Submission(studentId, e.marks, e.link, e.submissionDate) in a.submittedBy
  }

  lemma EntriesTraceBack(assignments: seq<Assignment>, qs: seq<Assignment>, classId: Id, studentId: Id)
    requires forall a :: a in qs ==> a in assignments && a.className == classId
                                     && SubmittedBy(a.submittedBy, studentId)
    ensures forall j :: 0 <= j < |qs| ==> Reported(Entries(qs, studentId)[j], assignments, classId, studentId)
  {
    forall j | 0 <= j < |qs|
      ensures Reported(Entries(qs, studentId)[j], assignments, classId, studentId)
    {
      assert qs[j] in qs;
    }
  }

  /** Every assignment the query selects has its entry in the list. */
  lemma EntriesComplete(assignments: seq<Assignment>, qs: seq<Assignment>, classId: Id, studentId: Id)
    requires forall a :: a in qs ==> SubmittedBy(a.submittedBy, studentId)
    requires forall a :: a in assignments && Submitted(a, classId, studentId) ==> a in qs
    ensures forall a :: a in assignments && Submitted(a, classId, studentId) ==>
              EntryOf(a, studentId) in Entries(qs, studentId)
  {
    forall a | a in assignments && Submitted(a, classId, studentId)
      ensures EntryOf(a, studentId) in Entries(qs, studentId)
    {
      var j :| 0 <= j < |qs| && qs[j] == a;
      assert Entries(qs, studentId)[j] == EntryOf(a, studentId);
    }
  }

  /**
    getStudentPerformance: 400 without both ids, 500 when the class does
    not exist (reading its assignments throws); otherwise the size of the
    class's assignment list, and one entry per assignment of the class the
    student submitted, counted by the list's own length.
   */
  function PerformanceOf(classes: map<Id, Classes.ClassRecord>, assignments: seq<Assignment>,
                         students: map<Id, Student>, classId: Id, studentId: Id): (r: Result<Performance>)
    ensures classId == "" || studentId == "" ==> r == Fail(400)
    ensures r.Fail? <==> classId == "" || studentId == "" || classId !in classes
    ensures r.Fail? ==> r.status == 400 || r.status == 500
    ensures classId != "" && studentId != "" && classId !in classes ==> r == Fail(500)
    ensures r.Ok? ==> r.value.totalAssignments == |classes[classId].assignments|
    ensures r.Ok? ==> r.value.submittedAssignmentsCount == |r.value.submittedAssignments|
    ensures r.Ok? ==> r.value.submittedAssignmentsCount <= |assignments|
    ensures r.Ok? ==> r.value.studentInfo == if studentId in students then Some(students[studentId]) else None
    ensures r.Ok? ==> forall j :: 0 <= j < |r.value.submittedAssignments| ==>
                        Reported(r.value.submittedAssignments[j], assignments, classId, studentId)
    ensures r.Ok? ==> forall a :: a in assignments && Submitted(a, classId, studentId) ==>
                        EntryOf(a, studentId) in r.value.submittedAssignments
    ensures r.Ok? ==> r.value.submittedAssignmentsCount == |Filter(assignments, SubmittedTo(classId, studentId))|
  {
    if classId == "" || studentId == "" then Fail(400)
    else if classId !in classes then Fail(500)
    else
      var qs := Filter(assignments, SubmittedTo(classId, studentId));
      var entries := Entries(qs, studentId);
      assert forall a :: a in qs ==> a in assignments && Submitted(a, classId, studentId);
      EntriesTraceBack(assignments, qs, classId, studentId);
      EntriesComplete(assignments, qs, classId, studentId);
      Ok(Performance(|classes[classId].assignments|, |qs|,
                     if studentId in students then Some(students[studentId]) else None, entries))
  }

  /** A student who submitted nothing to the class is reported with no entries. */
  lemma NothingSubmittedNothingReported(classes: map<Id, Classes.ClassRecord>, assignments: seq<Assignment>,
                                        students: map<Id, Student>, classId: Id, studentId: Id)
    requires classId != "" && studentId != "" && classId in classes
    requires forall a :: a in assignments && a.className == classId ==> !SubmittedBy(a.submittedBy, studentId)
    ensures PerformanceOf(classes, assignments, students, classId, studentId).Ok?
    ensures PerformanceOf(classes, assignments, students, classId, studentId).value.submittedAssignmentsCount == 0
  {
  }

  /** Assignments of other classes do not change the summary. */
  lemma OtherClassesIgnored(classes: map<Id, Classes.ClassRecord>, assignments: seq<Assignment>,
                            other: seq<Assignment>, students: map<Id, Student>, classId: Id, studentId: Id)
    requires forall a :: a in other ==> a.className != classId
    ensures PerformanceOf(classes, assignments + other, students, classId, studentId)
            == PerformanceOf(classes, assignments, students, classId, studentId)
  {
    var keep := SubmittedTo(classId, studentId);
    FilterAppend(assignments, other, keep);
    FilterNone(other, keep);
    assert Filter(assignments, keep) + [] == Filter(assignments, keep);
  }

  class StudentStore {
    var students: map<Id, Student>

    constructor ()
      ensures students == map[]
    {
      students := map[];
    }

    /** generateAccessAndRefreshToken: the issued refresh token becomes the stored one. */
    method IssueTokens(id: Id, access: Token, refresh: Token) returns (r: Result<Sessions.TokenPair>)
      modifies this
      ensures id in old(students) ==> r == Ok(Sessions.TokenPair(access, refresh))
                                      && students == old(students)[id := old(students)[id].(refreshToken := Some(refresh))]
      ensures id !in old(students) ==> r == Fail(500) && students == old(students)
      ensures r.Ok? ==> id in students && students[id].refreshToken == Some(r.value.refreshToken)
    {
      if id !in students {
        return Fail(500);
      }
      students := students[id := students[id].(refreshToken := Some(refresh))];
      r := Ok(Sessions.TokenPair(access, refresh));
    }

    /**
      registerStudent; `newId` is the id the database assigns. A new
      student is logged in at once: the record is saved with the refresh
      token just issued.
     */
    method Register(q: Registration, hasFile: bool, uploaded: bool, url: string, newId: Id,
                    access: Token, refresh: Token) returns (r: Result<(Id, Sessions.TokenPair)>)
      requires newId !in students
      modifies this
      ensures var e := RegisterError(old(students), q, hasFile, uploaded);
              if e.Some? then r == Fail(e.value) && students == old(students)
              else r == Ok((newId, Sessions.TokenPair(access, refresh)))
                   && students == old(students)[newId := Created(q, url).(refreshToken := Some(refresh))]
    {
      var e := RegisterError(students, q, hasFile, uploaded);
      if e.Some? {
        return Fail(e.value);
      }
      students := students[newId := Created(q, url)];
      var issued := IssueTokens(newId, access, refresh);
      r := Ok((newId, issued.value));
    }

    /**
      loginStudent: 400 for a missing username or password or an unknown
      username, 401 for a wrong password; otherwise tokens are issued.
     */
    method Login(username: Field, password: Field, access: Token, refresh: Token)
      returns (r: Result<(Id, Sessions.TokenPair)>)
      modifies this
      ensures r.Fail? ==> students == old(students) && (r.status == 400 || r.status == 401)
      ensures Falsy(username) || Falsy(password) ==> r == Fail(400)
      ensures !Falsy(username) && !Held(old(students), Username, username) ==> r == Fail(400)
      ensures !Falsy(username) && !Falsy(password) && Held(old(students), Username, username)
              ==> r.Ok? || r == Fail(401)
      ensures r == Fail(401) ==> exists k :: k in old(students) && old(students)[k].username == username
                                               && old(students)[k].password != password
      ensures r.Ok? ==> var id := r.value.0;
                        id in old(students) && old(students)[id].username == username
                        && old(students)[id].password == password
                        && r.value.1 == Sessions.TokenPair(access, refresh)
                        && students == old(students)[id := old(students)[id].(refreshToken := Some(refresh))]
      ensures !Falsy(username) && !Falsy(password) && Held(old(students), Username, username)
              && (forall k :: k in old(students) && old(students)[k].username == username
                              ==> old(students)[k].password == password)
              ==> r.Ok?
    {
      if Falsy(username) || Falsy(password) {
        return Fail(400);
      }
      if !Held(students, Username, username) {
        return Fail(400);
      }
      var id :| id in students && Matches(Username(students[id]), username);
      if students[id].password != password {
        return Fail(401);
      }
      var issued := IssueTokens(id, access, refresh);
      r := Ok((id, issued.value));
    }

    /** logoutStudent: the caller's stored refresh token is unset. */
    method Logout(self: Id)
      modifies this
      ensures students == if self in old(students)
                          then old(students)[self := old(students)[self].(refreshToken := None)]
                          else old(students)
    {
      if self in students {
        students := students[self := students[self].(refreshToken := None)];
      }
    }

    /**
      refreshStudentAccessToken: the token comes from the cookie, the body
      or the Authorization header; it is honoured only when it is the
      stored one, which is then replaced. Every failure is a 401.
     */
    method Refresh(c: Sessions.Carrier, verify: map<Token, Id>, access: Token, refresh: Token)
      returns (r: Result<Sessions.TokenPair>)
      modifies this
      ensures var v := Sessions.Decide(Sessions.Incoming(c, true), verify, old(students), StoredToken);
              if v.Rotate?
              then r == Ok(Sessions.TokenPair(access, refresh))
                   && students == old(students)[v.user := old(students)[v.user].(refreshToken := Some(refresh))]
              else r == Fail(401) && students == old(students)
    {
      var v := Sessions.Decide(Sessions.Incoming(c, true), verify, students, StoredToken);
      if v.Reject? {
        return Fail(v.status);
      }
      r := IssueTokens(v.user, access, refresh);
    }

    /** updateProfileDetails for the authenticated student `self`. */
    method UpdateProfileDetails(self: Id, d: ProfileDetails) returns (r: Result<Student>)
      modifies this
      ensures var e := DetailsError(old(students), self, d);
              if e.Some? then r == Fail(e.value) && students == old(students)
              else students == old(students)[self := WithDetails(old(students)[self], d)] && r == Ok(students[self])
    {
      var e := DetailsError(students, self, d);
      if e.Some? {
        return Fail(e.value);
      }
      students := students[self := WithDetails(students[self], d)];
      r := Ok(students[self]);
    }

    /** deleteStudent: a student enrolled in a class is never deleted. */
    method Delete(studentId: Id) returns (r: Result<()>)
      modifies this
      ensures var e := DeleteError(old(students), studentId);
              if e.Some? then r == Fail(e.value) && students == old(students)
              else r == Ok(()) && students == old(students) - {studentId}
      ensures forall k :: k in old(students) && old(students)[k].enrolledInClass != Null ==> k in students
    {
      var e := DeleteError(students, studentId);
      if e.Some? {
        return Fail(e.value);
      }
      students := students - {studentId};
      r := Ok(());
    }
  }
}

=== FILE: teacher.dfy ===
/**
  The teacher controller: registration, login, logout, refresh-token
  rotation and profile updates over the teacher collection, and the
  assignment of a new class to a teacher that class creation performs.
 */
module Teachers {
  import opened Js
  import opened Docs
  import Sessions

  type Token = Sessions.Token

  /**
    A teacher record. `campus` and `instructorOfClass` are id lists that
    class creation appends to; `isVerified` starts false.
   */
  datatype Teacher = Teacher(
    fullName: Field, username: Field, email: Field, password: Field, role: Field,
    gender: Field, phoneNumber: Field, phone: Field, city: Field, campus: seq<Id>, course: Field,
    profile: string, instructorOfClass: seq<Id>, isVerified: bool,
    refreshToken: Option<Token>, createdBy: Field)

  datatype Registration = Registration(
    fullName: Field, username: Field, email: Field, password: Field, role: Field,
    gender: Field, phoneNumber: Field, city: Field, campus: Field, course: Field, userId: Field)

  datatype ProfileDetails = ProfileDetails(
    fullName: Field, email: Field, phone: Field, gender: Field, username: Field)

  function Username(t: Teacher): Field { t.username }
  function Email(t: Teacher): Field { t.email }
  function StoredToken(t: Teacher): Option<Token> { t.refreshToken }

  /** The fields registerTeacher tests for blankness, in its order (`userId` is not among them). */
  function RegistrationFields(q: Registration): seq<Field> {
    [q.fullName, q.username, q.email, q.password, q.role, q.gender, q.phoneNumber,
     q.city, q.campus, q.course]
  }

  /**
    registerTeacher's checks: 400 when a field is blank, 400 without a
    profile file or when its upload fails, and only then 400 when the
    username is taken, so a duplicate is detected after the upload.
   */
  function RegisterError(teachers: map<Id, Teacher>, q: Registration, hasFile: bool, uploaded: bool)
    : (e: Option<int>)
    ensures AnyBlank(RegistrationFields(q)) ==> e == Some(400)
    ensures e.None? <==> !AnyBlank(RegistrationFields(q)) && hasFile && uploaded
                         && !Held(teachers, Username, q.username)
    ensures e.Some? ==> e.value == 400
    ensures Held(teachers, Username, q.username) ==> e.Some?
  {
    if AnyBlank(RegistrationFields(q)) then Some(400)
    else if !hasFile then Some(400)
    else if !uploaded then Some(400)
    else if Held(teachers, Username, q.username) then Some(400)
    else None
  }

  /** A single campus id in the body becomes a one-element campus list. */
  function CampusList(f: Field): seq<Id> {
    if f.Text? then [f.s] else []
  }

  /** The record registerTeacher saves; `createdBy` is the body's `userId`. */
  function Created(q: Registration, url: string): Teacher {
    Teacher(q.fullName, q.username, q.email, q.password, q.role, q.gender, q.phoneNumber, Undefined,
            q.city, CampusList(q.campus), q.course, url, [], false, None, q.userId)
  }

  function DetailFields(d: ProfileDetails): seq<Field> {
    [d.fullName, d.email, d.phone, d.gender, d.username]
  }

  /** updateProfileDetails' checks over the teacher collection. */
  function DetailsError(teachers: map<Id, Teacher>, self: Id, d: ProfileDetails): Option<int> {
    ProfileError(teachers, self, DetailFields(d), Username, d.username, Email, d.email)
  }

  function WithDetails(t: Teacher, d: ProfileDetails): Teacher {
    t.(fullName := Overwrite(t.fullName, d.fullName), email := Overwrite(t.email, d.email),
       phone := Overwrite(t.phone, d.phone), gender := Overwrite(t.gender, d.gender),
       username := Overwrite(t.username, d.username))
  }

  /** A registration that passes every check keeps usernames unique. */
  lemma RegisterKeepsUsernamesUnique(teachers: map<Id, Teacher>, q: Registration, hasFile: bool,
                                     uploaded: bool, url: string, newId: Id)
    requires Unique(teachers, Username) && newId !in teachers
    requires RegisterError(teachers, q, hasFile, uploaded).None?
    ensures Unique(teachers[newId := Created(q, url)], Username)
  {
    InsertKeepsUnique(teachers, Username, newId, Created(q, url));
  }

  /** A profile update that passes every check keeps usernames and emails unique. */
  lemma ProfileUpdateKeepsUnique(teachers: map<Id, Teacher>, self: Id, d: ProfileDetails)
    requires Unique(teachers, Username) && Unique(teachers, Email)
    requires DetailsError(teachers, self, d).None?
    ensures Unique(teachers[self := WithDetails(teachers[self], d)], Username)
    ensures Unique(teachers[self := WithDetails(teachers[self], d)], Email)
  {
    var rec := WithDetails(teachers[self], d);
    if d.username.Undefined? {
      SameValueKeepsUnique(teachers, Username, self, rec);
    } else {
      ReplaceKeepsUnique(teachers, Username, self, rec);
    }
    if d.email.Undefined? {
      SameValueKeepsUnique(teachers, Email, self, rec);
    } else {
      ReplaceKeepsUnique(teachers, Email, self, rec);
    }
  }

  /**
    What class creation does to the assigned teacher: the class id is
    appended to `instructorOfClass` and the campus id to `campus`, without
    removing duplicates, and the teacher ends verified.
   */
  function Assigned(t: Teacher, classId: Id, campusId: Id): (r: Teacher)
    ensures r.isVerified
    ensures |r.instructorOfClass| == |t.instructorOfClass| + 1 && r.instructorOfClass[|t.instructorOfClass|] == classId
    ensures r.instructorOfClass[..|t.instructorOfClass|] == t.instructorOfClass
    ensures |r.campus| == |t.campus| + 1 && r.campus[|t.campus|] == campusId
    ensures r.campus[..|t.campus|] == t.campus
    ensures r.(instructorOfClass := t.instructorOfClass, campus := t.campus, isVerified := t.isVerified) == t
  {
    var t' := t.(instructorOfClass := t.instructorOfClass + [classId], campus := t.campus + [campusId]);
    if t'.isVerified == false then t'.(isVerified := true) else t'
  }

  class TeacherStore {
    var teachers: map<Id, Teacher>

    constructor ()
      ensures teachers == map[]
    {
      teachers := map[];
    }

    /** generateAccessAndRefreshToken: the issued refresh token becomes the stored one. */
    method IssueTokens(id: Id, access: Token, refresh: Token) returns (r: Result<Sessions.TokenPair>)
      modifies this
      ensures id in old(teachers) ==> r == Ok(Sessions.TokenPair(access, refresh))
                                      && teachers == old(teachers)[id := old(teachers)[id].(refreshToken := Some(refresh))]
      ensures id !in old(teachers) ==> r == Fail(500) && teachers == old(teachers)
      ensures r.Ok? ==> id in teachers && teachers[id].refreshToken == Some(r.value.refreshToken)
    {
      if id !in teachers {
        return Fail(500);
      }
      teachers := teachers[id := teachers[id].(refreshToken := Some(refresh))];
      r := Ok(Sessions.TokenPair(access, refresh));
    }

    /** registerTeacher; `newId` is the id the database assigns. */
    method Register(q: Registration, hasFile: bool, uploaded: bool, url: string, newId: Id)
      returns (r: Result<Id>)
      requires newId !in teachers
      modifies this
      ensures var e := RegisterError(old(teachers), q, hasFile, uploaded);
              if e.Some? then r == Fail(e.value) && teachers == old(teachers)
              else r == Ok(newId) && teachers == old(teachers)[newId := Created(q, url)]
    {
      var e := RegisterError(teachers, q, hasFile, uploaded);
      if e.Some? {
        return Fail(e.value);
      }
      teachers := teachers[newId := Created(q, url)];
      r := Ok(newId);
    }

    /**
      loginTeacher: 400 for a missing username or password or an unknown
      username, 401 for a wrong password; otherwise tokens are issued for
      the teacher found.
     */
    method Login(username: Field, password: Field, access: Token, refresh: Token)
      returns (r: Result<(Id, Sessions.TokenPair)>)
      modifies this
      ensures r.Fail? ==> teachers == old(teachers) && (r.status == 400 || r.status == 401)
      ensures Falsy(username) || Falsy(password) ==> r == Fail(400)
      ensures !Falsy(username) && !Held(old(teachers), Username, username) ==> r == Fail(400)
      ensures !Falsy(username) && !Falsy(password) && Held(old(teachers), Username, username)
              ==> r.Ok? || r == Fail(401)
      ensures r == Fail(401) ==> exists k :: k in old(teachers) && old(teachers)[k].username == username
                                               && old(teachers)[k].password != password
      ensures r.Ok? ==> var id := r.value.0;
                        id in old(teachers) && old(teachers)[id].username == username
                        && old(teachers)[id].password == password
                        && r.value.1 == Sessions.TokenPair(access, refresh)
                        && teachers == old(teachers)[id := old(teachers)[id].(refreshToken := Some(refresh))]
      ensures !Falsy(username) && !Falsy(password) && Held(old(teachers), Username, username)
              && (forall k :: k in old(teachers) && old(teachers)[k].username == username
                              ==> old(teachers)[k].password == password)
              ==> r.Ok?
    {
      if Falsy(username) || Falsy(password) {
        return Fail(400);
      }
      if !Held(teachers, Username, username) {
        return Fail(400);
      }
      var id :| id in teachers && Matches(Username(teachers[id]), username);
      if teachers[id].password != password {
        return Fail(401);
      }
      var issued := IssueTokens(id, access, refresh);
      r := Ok((id, issued.value));
    }

    /** logoutTeacher: the caller's stored refresh token is unset. */
    method Logout(self: Id)
      modifies this
      ensures teachers == if self in old(teachers)
                          then old(teachers)[self := old(teachers)[self].(refreshToken := None)]
                          else old(teachers)
    {
      if self in teachers {
        teachers := teachers[self := teachers[self].(refreshToken := None)];
      }
    }

    /**
      refreshTeacherAccessToken: the token comes from the cookie or the
      body only; it is honoured only when it is the stored one, which is
      then replaced. Every failure is a 401.
     */
    method Refresh(c: Sessions.Carrier, verify: map<Token, Id>, access: Token, refresh: Token)
      returns (r: Result<Sessions.TokenPair>)
      modifies this
      ensures var v := Sessions.Decide(Sessions.Incoming(c, false), verify, old(teachers), StoredToken);
              if v.Rotate?
              then r == Ok(Sessions.TokenPair(access, refresh))
                   && teachers == old(teachers)[v.user := old(teachers)[v.user].(refreshToken := Some(refresh))]
              else r == Fail(401) && teachers == old(teachers)
    {
      var v := Sessions.Decide(Sessions.Incoming(c, false), verify, teachers, StoredToken);
      if v.Reject? {
        return Fail(v.status);
      }
      r := IssueTokens(v.user, access, refresh);
    }

    /** updateProfileDetails for the authenticated teacher `self`. */
    method UpdateProfileDetails(self: Id, d: ProfileDetails) returns (r: Result<Teacher>)
      modifies this
      ensures var e := DetailsError(old(teachers), self, d);
              if e.Some? then r == Fail(e.value) && teachers == old(teachers)
              else teachers == old(teachers)[self := WithDetails(old(teachers)[self], d)] && r == Ok(teachers[self])
    {
      var e := DetailsError(teachers, self, d);
      if e.Some? {
        return Fail(e.value);
      }
      teachers := teachers[self := WithDetails(teachers[self], d)];
      r := Ok(teachers[self]);
    }
  }
}
